=== FILE: README.md ===
# README generator for Drupal modules: the scanner, modelled in Dafny

The Drupal module `ai_readme_generator` writes a README for another module. It
first scans the module directory into a report; a language model then turns the
report into prose. This project models that scan and the form's module picker
as pure functions, and proves what they report.

- **The scan** (`CodebaseScanner`, `scanner.dfy`). The path given to the
  constructor loses its trailing slashes. The report then has nine keys, which
  `array_merge` assembles from four parts:
  - the module's name, description and dependencies, from the first top-level
    `.info.yml` manifest, with defaults;
  - the `classes` and `functions` found by regular expressions in fourteen
    glob patterns' worth of files;
  - the `hooks`, plus the `controllers` and `forms` found by directory
    convention;
  - the `submodules`, one manifest one level below `modules/`.
- **The PHP building blocks**, one module each:
  - `Strings`: `rtrim`, `basename`, `str_replace`, `strpos`, `substr_count`;
  - `Glob`: `glob` over a directory listing;
  - `Regex` and `LeftmostScan`: `preg_match_all` and `preg_match` for the
    three patterns;
  - `PhpArrays`: string-keyed arrays, `$a[$k] = $v` and `array_merge`.
- **The module picker** (`ModuleList`, `modulelist.dfy`). Two plain prefix
  tests on the module's path decide what is dropped. The first drops a path
  that starts with `core/modules`. The second drops a path that starts with
  `modules/custom` or `modules/contrib` and contains more than two `/`.
  Neither prefix ends in `/`. So `core/profiles/demo/modules/dc` is kept,
  and `modules/customer/a/b` is dropped. The kept modules map machine name to
  label and are sorted with `asort`.
- **Worked inputs** (`Scenarios`, `scenarios.dfy`). A few concrete texts,
  with the matches proved for each.

The filesystem is an input value, `FileSystem`:
- `paths` is the directory listing, in the order `glob` reports it (`glob`
  sorts its results, and every pattern's results are a subsequence of the
  listing);
- `contents` is the text of each readable file;
- `manifests` is the parsed form of each `.info.yml`.

A file missing from `contents` reads as the empty text. `file_get_contents`
returns `false` for it and the regular expressions read `false` as the empty
string, so an unreadable file contributes no symbols and the scan carries on.

Three details of the code that the model keeps:
- Defaults: two different default descriptions are used. When no manifest
  exists, it is `No description found.` (`CodebaseScanner.php:64`). When the
  manifest lacks a description, it is `No description available.`
  (`CodebaseScanner.php:71`, and `:137` for a submodule).
- Duplicates: the list of scanned files is just the fourteen `glob` results
  one after another. No two of the patterns can match the same path, so
  `RelevantFilesDistinct` proves the list has no repeats whenever the
  listing has none.
- Relative paths: `str_replace` deletes `mp/` wherever it occurs, not only
  as a prefix. Both callers pass a module path with at least two `/`
  (`modules/custom/<name>` in `ReadmeGeneratorCommands.php:54-57`,
  `DRUPAL_ROOT/<path>` in `GenerateReadmeForm.php:131`). For such a path,
  `SubDirRelativePath` proves the prefix cannot recur in a scanned
  subdirectory file. With a one-component path it can: under `c`, the file
  `c/src/Controller/X.php` becomes `srController/X.php`
  (`Scenarios.ShortModulePath`). So that controller is not reported.

## Model

| member | source | states |
|---|---|---|
| Strings.RTrimSlash | src/Scanner/CodebaseScanner.php:29 | the trimmed path is a prefix of the argument. Only `/` characters were removed, and the result is empty or does not end in `/`. Together these fix the result uniquely. |
| Strings.RTrimSlashes | src/Scanner/CodebaseScanner.php:29 | appending any run of slashes to a path leaves the trimmed path unchanged. |
| Strings.Basename | src/Scanner/CodebaseScanner.php:63 | `basename` of the trimmed path. The result holds no `/` and ends the trimmed path. It is either the whole trimmed path or begins just after a `/`, so it is the last path component. `BasenameAfterSlash` names it for a given last `/`. The same default is used at line 70. |
| CodebaseScanner.ScanTrailingSlashes | src/Scanner/CodebaseScanner.php:28-30 | any run of trailing slashes on the module path leaves the report unchanged. |
| CodebaseScanner.ModuleInfoWithoutManifest | src/Scanner/CodebaseScanner.php:60-66 | with no `*.info.yml` directly in the module directory, the name is the directory's base name, the description is `No description found.` and the dependencies are empty. |
| CodebaseScanner.ModuleInfoWithManifest | src/Scanner/CodebaseScanner.php:68-73 | with manifests present, only the first one `glob` finds is read. Each of name, description and dependencies is the manifest's value, or else its own default: base name, `No description available.`, empty list. |
| CodebaseScanner.ReadText | src/Scanner/CodebaseScanner.php:159 | `file_get_contents`: the text of a readable file. A file it cannot read returns `false`, which the pattern matching uses as the empty text. The same read is at line 196. |
| CodebaseScanner.ReadManifest | src/Scanner/CodebaseScanner.php:69 | `Yaml::parseFile`: the parsed keys of a manifest. A key that is absent, or a file that yields no mapping, is `None`, which the `??` defaults at lines 70-72 replace. |
| CodebaseScanner.ExtractModuleInfo | src/Scanner/CodebaseScanner.php:60-76 | name, description and dependencies from the first top-level manifest, with defaults. Its contract is carried by `ModuleInfoWithoutManifest` and `ModuleInfoWithManifest`. |
| Glob.GlobFiles | src/Scanner/CodebaseScanner.php:61 | `glob` returns exactly the listed paths matching the pattern, in listing order (a subsequence of the listing). |
| Glob.GlobFirst | src/Scanner/CodebaseScanner.php:68-69 | the first listed path matching the pattern is `$infoFile[0]`. |
| CodebaseScanner.RelevantFiles | src/Scanner/CodebaseScanner.php:84-120 | a path is scanned exactly when it is listed and matches one of the fourteen patterns. Every scanned path lies under the module directory. |
| CodebaseScanner.ListRelevantFiles | src/Scanner/CodebaseScanner.php:84-120 | the fourteen `glob` results, concatenated in the source's order. Its contract is carried by `RelevantFiles`, `RelevantFilesOrder` and `RelevantFilesDistinct`. |
| CodebaseScanner.RelevantFilesOrder | src/Scanner/CodebaseScanner.php:98-117 | files directly in the module directory come before any file in a subdirectory, since the top-level patterns are globbed first. |
| CodebaseScanner.RelevantFilesDistinct | src/Scanner/CodebaseScanner.php:87-111 | no two of the fourteen patterns match the same path, so a listing without repeats yields a file list without repeats. |
| Glob.GlobAllDistinct | src/Scanner/CodebaseScanner.php:98-102 | globbing pairwise-disjoint patterns one after another, over a listing without repeats, finds no path twice. |
| CodebaseScanner.RelativePathOf | src/Scanner/CodebaseScanner.php:158 | removing every occurrence of `mp/` from a path under `mp` gives the part after the prefix, provided `mp/` does not recur in it. |
| CodebaseScanner.TopLevelRelativePath | src/Scanner/CodebaseScanner.php:195 | the relative path of a file directly in the module directory is its file name. |
| CodebaseScanner.RelativePath | src/Scanner/CodebaseScanner.php:158 | `str_replace($mp . '/', '', $file)`. Its contract is carried by `RelativePathOf`, `TopLevelRelativePath` and `SubDirRelativePath`. |
| CodebaseScanner.SubDirRelativePath | src/Scanner/CodebaseScanner.php:195 | under a module path with at least two `/`, a file found by a subdirectory pattern has as relative path what follows `mp/`: its remainder holds two `/`, too few to contain `mp/`. |
| Scenarios.ShortModulePath | src/Scanner/CodebaseScanner.php:195 | under the one-component module path `c`, `str_replace` also deletes the `c/` inside `src/`, so `c/src/Controller/X.php` has relative path `srController/X.php`. |
| Strings.RemoveAll | src/Scanner/CodebaseScanner.php:158 | PHP `str_replace` with an empty replacement. The result is no longer than the argument. `RemoveAllFind` ties it to the first occurrence that `strpos` would report. |
| Strings.RemoveAllFind | src/Scanner/CodebaseScanner.php:158 | with no occurrence of the needle the text is returned unchanged. Otherwise the text before the first occurrence is kept, that occurrence is dropped, and the removal carries on after it, so overlapping matches that start inside a removed one are not removed. |
| Regex.MatchAtIsRegexMatch | src/Scanner/CodebaseScanner.php:161-171 | the greedy matcher anchored at an index returns a hit exactly when the regular expression matches there with that capture (both directions). So each pattern matches at most once per index. |
| Regex.MatchesAreLeftmost | src/Scanner/CodebaseScanner.php:161-171 | `preg_match_all` returns the one list of matches with four properties: every entry is a regular-expression match; the entries are in order; no two overlap; every match start falls within some entry. |
| LeftmostScan.ScanCharacterization | src/Scanner/CodebaseScanner.php:161 | the resume-after-each-match scan equals a list exactly when that list is leftmost and non-overlapping. |
| Regex.FirstMatchIsFirstOfMatches | src/Scanner/CodebaseScanner.php:205 | `preg_match` finds the first of the matches `preg_match_all` finds, and nothing when there are none. |
| Regex.DeclaredNames | src/Scanner/CodebaseScanner.php:161-171 | every reported function or class name is a non-empty run of `[A-Za-z0-9_]`. |
| Regex.HookNames | src/Scanner/CodebaseScanner.php:198 | every reported hook name is `hook_` followed by one or more of `[a-zA-Z_]`. |
| Regex.HooksAreFunctions | src/Scanner/CodebaseScanner.php:198-202 | within one text, the hook matches are an in-order subsequence of the function matches. |
| CodebaseScanner.FileEntryShape | src/Scanner/CodebaseScanner.php:162-170 | a file's entry is `relative-path::name` for one of its matches, and every match gives one. |
| CodebaseScanner.Collect | src/Scanner/CodebaseScanner.php:157-171 | an entry is collected exactly when some scanned file contributes it. |
| CodebaseScanner.CollectAppend | src/Scanner/CodebaseScanner.php:157-171 | the entries come in file order: collecting over two runs of files gives the first run's entries, then the second's. |
| CodebaseScanner.CollectSingle | src/Scanner/CodebaseScanner.php:161-170 | one file gives one entry `relative-path::name` per match, in match order, so a name declared twice appears twice. |
| CodebaseScanner.ParseCodeFiles | src/Scanner/CodebaseScanner.php:153-178 | `classes` and `functions` hold exactly the class and function entries of the scanned files. |
| CodebaseScanner.ParseCodeFilesAppend | src/Scanner/CodebaseScanner.php:153-178 | `classes` and `functions` list the files' entries in file order. With `CollectSingle`, this fixes both lists entry by entry: file order, then match order, one entry per match. |
| CodebaseScanner.HookEntriesAreFunctionEntries | src/Scanner/CodebaseScanner.php:194-202 | across all files, the `hooks` entries are an in-order subsequence of the `functions` entries. |
| CodebaseScanner.ConventionEntry | src/Scanner/CodebaseScanner.php:204-214 | a file contributes to `controllers` (or `forms`) only when its relative path contains `src/Controller/` (or `src/Form/`). What it contributes is its first class entry, if it has one. |
| CodebaseScanner.ConventionDirEntry | src/Scanner/CodebaseScanner.php:204-214 | under a module path with at least two `/`, a PHP file found in `src/Controller` passes the controller test and one found in `src/Form` the form test: each yields its first class entry, if any. |
| Strings.Find | src/Scanner/CodebaseScanner.php:204 | `strpos` returns the first index at or after the start where the needle occurs, or nothing when it occurs nowhere there. |
| CodebaseScanner.Conventional | src/Scanner/CodebaseScanner.php:194-214 | the convention entries are exactly those of some file, and there are at most as many as files. `ConventionalAppend` and `ConventionalSingle` fix the list entry by entry. |
| CodebaseScanner.ConventionalAppend | src/Scanner/CodebaseScanner.php:194-214 | the convention entries come in file order: two runs of files give the first run's entries, then the second's. |
| CodebaseScanner.ConventionalSingle | src/Scanner/CodebaseScanner.php:204-214 | one file yields at most one controller (or form): its first class entry, when its relative path holds the marker. |
| CodebaseScanner.ConventionalAreClasses | src/Scanner/CodebaseScanner.php:204-214 | controllers and forms are each an in-order subsequence of `classes`. |
| CodebaseScanner.ExtractUsefulData | src/Scanner/CodebaseScanner.php:189-222 | hooks are a subsequence of functions, and controllers and forms of classes, with at most as many controllers or forms as files. The one-per-file bound is `ConventionalSingle`, and the per-file layout is `ExtractUsefulDataAppend`. |
| CodebaseScanner.ExtractUsefulDataAppend | src/Scanner/CodebaseScanner.php:189-222 | hooks, controllers and forms of two runs of files are the first run's, then the second's, list by list. With `CollectSingle` and `ConventionalSingle`, this fixes each list entry by entry. |
| CodebaseScanner.ListSubmodules | src/Scanner/CodebaseScanner.php:128-142 | there is one submodule per manifest that `glob` finds one level below `modules/`. |
| CodebaseScanner.SubmoduleEntry | src/Scanner/CodebaseScanner.php:131-138 | the k-th submodule's manifest is a listed path matching the pattern, and that path ends in `/name.info.yml`. Its name is non-empty and slash-free. Its description is the manifest's, else `No description available.`. |
| Strings.BasenameWithSuffix | src/Scanner/CodebaseScanner.php:132 | `basename($f, $suffix)` cuts the suffix off the base name only when the base name ends in it and something is left: then the result is non-empty and gives back the base name when the suffix is appended. Otherwise it is the base name. |
| PhpArrays.PutLookup | src/Scanner/CodebaseScanner.php:46-51 | after `$a[$k] = $v`, `k` holds `v` and every other key holds its old value. |
| PhpArrays.MergeLookup | src/Scanner/CodebaseScanner.php:46-51 | in `array_merge`, a key of the later array takes its value from that array. Other keys keep their values from the earlier one. |
| PhpArrays.MergeDisjoint | src/Scanner/CodebaseScanner.php:46-51 | `array_merge` of arrays with no shared key is their concatenation. |
| CodebaseScanner.AssembleLayout | src/Scanner/CodebaseScanner.php:46-51 | the merged report is the nine entries name, description, dependencies, classes, functions, hooks, controllers, forms, submodules, each holding its part's value, in that order. |
| CodebaseScanner.ScanKeys | src/Scanner/CodebaseScanner.php:39-52 | the report of any scan has exactly the nine keys, each once, in that order. |
| CodebaseScanner.Scan | src/Scanner/CodebaseScanner.php:39-52 | the `array_merge` of the four parts over the trimmed module path. Its contract is carried by `ScanKeys`, `AssembleLayout` and `ScanTrailingSlashes`. |
| Scenarios.ClassClass | src/Scanner/CodebaseScanner.php:167 | in `class class Foo` the second `class` is the captured name, and the scan resumes past it. |
| Scenarios.Subclass | src/Scanner/CodebaseScanner.php:167 | `subclass Foo` reports the class `Foo`: the pattern has no word boundary. |
| Scenarios.EmptyHookSuffix | src/Scanner/CodebaseScanner.php:198 | `function hook_(` declares a function `hook_` but no hook. |
| Scenarios.KeptWithoutPrefix | src/Form/GenerateReadmeForm.php:167-177 | a path that starts with none of `core/modules`, `modules/custom` and `modules/contrib` is kept, however many `/` it holds. |
| Scenarios.DeepUnderCustom | src/Form/GenerateReadmeForm.php:171-177 | every path spelled `modules/custom`, then anything, then two more components is dropped, since it holds at least three `/`. |
| Scenarios.CoreProfileKept | src/Form/GenerateReadmeForm.php:167-169 | a core module outside `core/modules`, at `core/profiles/demo/modules/dc`, passes the core test and is kept. |
| Scenarios.CustomerDropped | src/Form/GenerateReadmeForm.php:171-177 | `modules/customer/a/b` passes for a path under `modules/custom`, since the prefix has no trailing `/`; with three `/` it is dropped. |
| ModuleList.Keep | src/Form/GenerateReadmeForm.php:167-177 | a module is kept unless its path starts with `core/modules`, or starts with `modules/custom` or `modules/contrib` and holds more than two `/`. The prefix tests carry no trailing `/`; `Scenarios.KeptWithoutPrefix`, `Scenarios.DeepUnderCustom`, `Scenarios.CoreProfileKept` and `Scenarios.CustomerDropped` show what follows from that. |
| ModuleList.Label | src/Form/GenerateReadmeForm.php:180 | `$info['name'] ?? $machine_name`: the info file's name when it has one, else the machine name. `Filter` states that every kept entry carries this label. |
| ModuleList.Filter | src/Form/GenerateReadmeForm.php:164-181 | an entry is kept exactly when its module passes both path tests. It maps the machine name to `info name ?? machine name`, and distinct machine names stay distinct keys. The kept entries are listed in discovery order. |
| Strings.CountChar | src/Form/GenerateReadmeForm.php:174 | `substr_count($path, '/')` is the number of times `/` occurs in the path (its multiplicity in the path's multiset). |
| ModuleList.LexLeTotal | src/Form/GenerateReadmeForm.php:183 | byte order on labels is total. |
| ModuleList.LexLeTrans | src/Form/GenerateReadmeForm.php:183 | byte order on labels is transitive. |
| ModuleList.SortByLabel | src/Form/GenerateReadmeForm.php:183 | `asort` permutes the entries. That labels then ascend is `SortSorted`, and that equal labels keep their order is `SortStable`. |
| ModuleList.SortSorted | src/Form/GenerateReadmeForm.php:183 | after `asort` the labels ascend. |
| ModuleList.SortStable | src/Form/GenerateReadmeForm.php:183 | `asort` is stable: entries with the same label keep their relative order. |
| ModuleList.SortDistinct | src/Form/GenerateReadmeForm.php:183 | `asort` keeps the keys distinct. |
| ModuleList.TopLevelCustomAndContribModules | src/Form/GenerateReadmeForm.php:159-185 | a discovered module is listed exactly when its path does not start with `core/modules`, and, if it starts with `modules/custom` or `modules/contrib`, holds at most two `/`. The list has distinct keys and ascending labels. It is a stable permutation of the filtered modules. |

## Left out

- Filesystem access, `glob`, `file_get_contents` and `Yaml::parseFile` read
  from the `FileSystem` value; the model does not touch a disk.
- YAML parsing: manifests come already parsed. A malformed manifest makes
  `Yaml::parseFile` throw, which aborts the scan; that failure is not
  modelled.
- Manifest values that are not strings (a list as `name`, say) are not
  modelled. A key that is absent or null is `None`.
- `glob` metacharacters inside the module path itself are taken literally.
- `asort` compares with PHP's `SORT_REGULAR`, which compares two numeric
  strings as numbers. The model compares labels in byte order. This is the
  same for non-numeric labels.
- Strings are sequences of characters; multi-byte encodings are not modelled.
  The patterns carry no `u` flag, so PCRE works on bytes anyway.
- PCRE failures through `pcre.backtrack_limit` are not modelled. When no `(`
  follows a run of name characters, `function\s+(hook_[a-zA-Z_]+)\s*\(` and
  `function\s+(\w+)\s*\(` give the run back one character at a time. That is
  linear in the run, but on a large enough file the limit could be reached
  and `preg_match_all` would fail. The model always returns the
  matches. There is no `u` flag, so invalid UTF-8 cannot make a match fail.
- `ExtensionDiscovery` and `InfoParser` in the module picker are replaced by
  the list of discovered extensions. The `path` and info `name` of each are
  inputs.
- `AIResponse.php` is not part of this model; it holds the prompt and the
  call to the language model. Nor are `AIConfigForm.php`,
  `ReadmeGeneratorCommands.php` and the form's `submitForm`, which hold the
  configuration, the Drush command and writing the README file.
- ModuleList.TopLevelCustomAndContribModules: assumes distinct machine names.
  The discovery result is keyed by machine name, so two modules with one name
  cannot both reach the loop.

=== FILE: glob.dfy ===
/**
  The `glob()` calls of the scanner. A pattern is the module directory, taken
  literally, then `/`, then path segments that are either a literal name or
  `*` followed by a literal suffix (`*.info.yml`, `*.php`, a bare `*`). A `*`
  never crosses `/` and, as in the C library's `glob`, never matches a name
  that starts with `.`. Results come in the order of the directory listing.
 */
module Glob {
  import opened Wrappers
  import opened Strings
  import opened Subsequences

  datatype Segment = Lit(text: string) | Star(suffix: string)

  type RelPattern = seq<Segment>

  /** One path component `c` matches one pattern segment. */
  predicate SegmentMatches(g: Segment, c: string) {
    && NoSlash(c)
    && match g
       case Lit(t) => c == t
       case Star(suffix) => |c| > 0 && c[0] != '.' && EndsWith(c, suffix)
  }

  /** The first `/` at or after `from`. */
  function SlashIndex(s: string, from: nat): (r: Option<nat>)
    requires from <= |s|
    ensures r.Some? ==> from <= r.value < |s| && s[r.value] == '/'
    ensures r.Some? ==> forall j :: from <= j < r.value ==> s[j] != '/'
    ensures r.None? ==> forall j :: from <= j < |s| ==> s[j] != '/'
    decreases |s| - from
  {
    if from == |s| then None
    else if s[from] == '/' then Some(from)
    else SlashIndex(s, from + 1)
  }

  /** The path `rest`, relative to the directory, matches the segments one component each. */
  predicate RelMatches(segs: RelPattern, rest: string)
    decreases |segs|
  {
    if |segs| == 0 then false
    else if |segs| == 1 then SegmentMatches(segs[0], rest)
    else
      match SlashIndex(rest, 0)
      case None => false
      case Some(k) => SegmentMatches(segs[0], rest[..k]) && RelMatches(segs[1..], rest[k + 1..])
  }

  /** The path `f` matches the glob pattern `dir + "/" + segs`. */
  predicate GlobMatch(dir: string, segs: RelPattern, f: string) {
    StartsWith(f, dir + "/") && RelMatches(segs, f[|dir| + 1..])
  }

  /** `glob(dir . '/' . pattern)` over a directory listing. */
  function GlobFiles(paths: seq<string>, dir: string, segs: RelPattern): (r: seq<string>)
    ensures forall f :: f in r <==> f in paths && GlobMatch(dir, segs, f)
    ensures IsSubseq(r, paths)
  {
    if |paths| == 0 then []
    else
      var rest := GlobFiles(paths[1..], dir, segs);
      assert paths == [paths[0]] + paths[1..];
      if GlobMatch(dir, segs, paths[0]) then
        assert ([paths[0]] + rest)[1..] == rest;
        [paths[0]] + rest
      else rest
  }

  /** The first path of the listing that matches is the first result of `glob`. */
  lemma {:induction false} GlobFirst(paths: seq<string>, dir: string, segs: RelPattern, j: nat)
    requires j < |paths| && GlobMatch(dir, segs, paths[j])
    requires forall i :: 0 <= i < j ==> !GlobMatch(dir, segs, paths[i])
    ensures |GlobFiles(paths, dir, segs)| > 0 && GlobFiles(paths, dir, segs)[0] == paths[j]
  {
    if j > 0 {
      GlobFirst(paths[1..], dir, segs, j - 1);
    }
  }

  /** The results of several patterns, pattern after pattern (a `foreach` over `glob` calls). */
  function GlobAll(paths: seq<string>, dir: string, pats: seq<RelPattern>): (r: seq<string>)
    ensures forall f :: f in r <==>
      f in paths && exists k :: 0 <= k < |pats| && GlobMatch(dir, pats[k], f)
  {
    if |pats| == 0 then []
    else
      var rest := GlobAll(paths, dir, pats[1..]);
      assert forall k :: 0 < k < |pats| ==> pats[k] == pats[1..][k - 1];
      GlobFiles(paths, dir, pats[0]) + rest
  }

  /** Globbing two pattern lists one after the other is globbing their concatenation. */
  lemma GlobAllConcat(paths: seq<string>, dir: string, p1: seq<RelPattern>, p2: seq<RelPattern>)
    ensures forall f :: f in GlobAll(paths, dir, p1) + GlobAll(paths, dir, p2) <==>
      f in paths && exists k :: 0 <= k < |p1 + p2| && GlobMatch(dir, (p1 + p2)[k], f)
  {
    var pats := p1 + p2;
    forall f | f in paths && exists k :: 0 <= k < |pats| && GlobMatch(dir, pats[k], f)
      ensures f in GlobAll(paths, dir, p1) + GlobAll(paths, dir, p2)
    {
      var k :| 0 <= k < |pats| && GlobMatch(dir, pats[k], f);
      if k < |p1| {
        assert pats[k] == p1[k];
      } else {
        assert pats[k] == p2[k - |p1|];
      }
    }
    forall f | f in GlobAll(paths, dir, p1) + GlobAll(paths, dir, p2)
      ensures exists k :: 0 <= k < |pats| && GlobMatch(dir, pats[k], f)
    {
      if f in GlobAll(paths, dir, p1) {
        var k :| 0 <= k < |p1| && GlobMatch(dir, p1[k], f);
        assert pats[k] == p1[k];
      } else {
        var k :| 0 <= k < |p2| && GlobMatch(dir, p2[k], f);
        assert pats[|p1| + k] == p2[k];
      }
    }
  }

  /** Globbing a concatenation of pattern lists is globbing each list in turn. */
  lemma {:induction false} GlobAllAppend(paths: seq<string>, dir: string, p1: seq<RelPattern>, p2: seq<RelPattern>)
    ensures GlobAll(paths, dir, p1 + p2) == GlobAll(paths, dir, p1) + GlobAll(paths, dir, p2)
    decreases |p1|
  {
    if |p1| > 0 {
      assert (p1 + p2)[0] == p1[0];
      assert (p1 + p2)[1..] == p1[1..] + p2;
      GlobAllAppend(paths, dir, p1[1..], p2);
    } else {
      assert p1 + p2 == p2;
    }
  }

  /** Some position at least `d` from the end, within both suffixes, holds different characters. */
  predicate SuffixesDiffer(a: string, b: string, d: nat)
    decreases |a| - d
  {
    d < |a| && d < |b| && (a[|a| - 1 - d] != b[|b| - 1 - d] || SuffixesDiffer(a, b, d + 1))
  }

  /** No string ends with two suffixes that differ somewhere. */
  lemma {:induction false} SuffixesDifferExclusive(a: string, b: string, d: nat, c: string)
    requires SuffixesDiffer(a, b, d)
    ensures !(EndsWith(c, a) && EndsWith(c, b))
    decreases |a| - d
  {
    if a[|a| - 1 - d] == b[|b| - 1 - d] {
      SuffixesDifferExclusive(a, b, d + 1, c);
    }
  }

  /** No path component matches both segments. */
  predicate SegmentsApart(g1: Segment, g2: Segment) {
    match (g1, g2)
    case (Lit(a), Lit(b)) => a != b
    case (Star(a), Star(b)) => SuffixesDiffer(a, b, 0)
    case _ => false
  }

  /**
    The two patterns never match the same path: one has a single segment and
    the other several, or the first segments are apart, or the rest are.
   */
  predicate Apart(s1: RelPattern, s2: RelPattern)
    decreases |s1|
  {
    && |s1| > 0 && |s2| > 0
    && (|| (|s1| == 1) != (|s2| == 1)
        || SegmentsApart(s1[0], s2[0])
        || (|s1| > 1 && |s2| > 1 && Apart(s1[1..], s2[1..])))
  }

  lemma SegmentsApartExclusive(g1: Segment, g2: Segment, c: string)
    requires SegmentsApart(g1, g2)
    ensures !(SegmentMatches(g1, c) && SegmentMatches(g2, c))
  {
    if g1.Star? && g2.Star? {
      SuffixesDifferExclusive(g1.suffix, g2.suffix, 0, c);
    }
  }

  /** Patterns that are apart match disjoint sets of relative paths. */
  lemma {:induction false} ApartExclusive(s1: RelPattern, s2: RelPattern, rest: string)
    requires Apart(s1, s2)
    ensures !(RelMatches(s1, rest) && RelMatches(s2, rest))
    decreases |s1|
  {
    if RelMatches(s1, rest) && RelMatches(s2, rest) {
      if |s1| == 1 && |s2| == 1 {
        SegmentsApartExclusive(s1[0], s2[0], rest);
      } else if |s1| > 1 && |s2| > 1 {
        var k := SlashIndex(rest, 0).value;
        if SegmentsApart(s1[0], s2[0]) {
          SegmentsApartExclusive(s1[0], s2[0], rest[..k]);
        } else {
          ApartExclusive(s1[1..], s2[1..], rest[k + 1..]);
        }
      }
    }
  }

  /** Pairwise apart patterns over a listing without repeats find no path twice. */
  lemma {:induction false} GlobAllDistinct(paths: seq<string>, dir: string, pats: seq<RelPattern>)
    requires Distinct(paths)
    requires forall i, j :: 0 <= i < j < |pats| ==> Apart(pats[i], pats[j])
    ensures Distinct(GlobAll(paths, dir, pats))
    decreases |pats|
  {
    if |pats| > 0 {
      var first := GlobFiles(paths, dir, pats[0]);
      var rest := GlobAll(paths, dir, pats[1..]);
      SubseqDistinct(first, paths);
      GlobAllDistinct(paths, dir, pats[1..]);
      forall i, j | 0 <= i < |first| && 0 <= j < |rest|
        ensures first[i] != rest[j]
      {
        assert first[i] in first && rest[j] in rest;
        var k :| 0 <= k < |pats[1..]| && GlobMatch(dir, pats[1..][k], rest[j]);
        assert Apart(pats[0], pats[k + 1]);
        ApartExclusive(pats[0], pats[k + 1], rest[j][|dir| + 1..]);
      }
      var r := first + rest;
      forall i, j | 0 <= i < j < |r|
        ensures r[i] != r[j]
      {
        if j < |first| {
        } else if i >= |first| {
          assert r[i] == rest[i - |first|] && r[j] == rest[j - |first|];
        } else {
          assert r[j] == rest[j - |first|];
        }
      }
    }
  }

  /** A path matching `n` segments holds exactly `n - 1` slashes. */
  lemma {:induction false} SegmentSlashes(segs: RelPattern, rest: string)
    requires RelMatches(segs, rest)
    ensures CountChar(rest, '/') == |segs| - 1
    decreases |segs|
  {
    if |segs| == 1 {
      assert '/' !in multiset(rest);
    } else {
      var k := SlashIndex(rest, 0).value;
      SegmentSlashes(segs[1..], rest[k + 1..]);
      assert rest == rest[..k] + "/" + rest[k + 1..];
      assert '/' !in multiset(rest[..k]);
    }
  }

  /** A path matching two literal segments and one more starts with both literals, each followed by `/`. */
  lemma TwoLitPrefix(a: string, b: string, g: Segment, rest: string)
    requires RelMatches([Lit(a), Lit(b), g], rest)
    ensures StartsWith(rest, a + "/" + b + "/")
  {
    var segs := [Lit(a), Lit(b), g];
    var k := SlashIndex(rest, 0).value;
    var tail := rest[k + 1..];
    assert RelMatches(segs[1..], tail);
    var k2 := SlashIndex(tail, 0).value;
    assert rest[..k] == a && tail[..k2] == b;
    assert rest[..|a + "/" + b + "/"|] == a + "/" + b + "/";
  }

  /** `f` lies directly inside `dir`. */
  predicate DirectlyIn(dir: string, f: string) {
    StartsWith(f, dir + "/") && NoSlash(f[|dir| + 1..])
  }

  /** A path found by a one-segment pattern lies directly inside the directory. */
  lemma OneSegmentDirectlyIn(dir: string, segs: RelPattern, f: string)
    requires |segs| == 1 && GlobMatch(dir, segs, f)
    ensures DirectlyIn(dir, f)
  {
  }

  /** A path found by a pattern of several segments lies in a subdirectory. */
  lemma SegmentsNotDirectlyIn(dir: string, segs: RelPattern, f: string)
    requires |segs| >= 2 && GlobMatch(dir, segs, f)
    ensures !DirectlyIn(dir, f)
  {
    var rest := f[|dir| + 1..];
    var i := SlashIndex(rest, 0).value;
    assert rest[i] == '/';
  }

  /**
    Globbing one-segment patterns before patterns of several segments puts
    the paths directly inside the directory first.
   */
  lemma GlobAllOrder(paths: seq<string>, dir: string, p1: seq<RelPattern>, p2: seq<RelPattern>)
    requires forall k :: 0 <= k < |p1| ==> |p1[k]| == 1
    requires forall k :: 0 <= k < |p2| ==> |p2[k]| >= 2
    ensures var files := GlobAll(paths, dir, p1) + GlobAll(paths, dir, p2);
      forall i, j :: 0 <= i < j < |files| && DirectlyIn(dir, files[j]) ==> DirectlyIn(dir, files[i])
  {
    var top := GlobAll(paths, dir, p1);
    var sub := GlobAll(paths, dir, p2);
    var files := top + sub;
    forall i | 0 <= i < |top|
      ensures DirectlyIn(dir, files[i])
    {
      assert top[i] in top;
      var k :| 0 <= k < |p1| && GlobMatch(dir, p1[k], top[i]);
      OneSegmentDirectlyIn(dir, p1[k], top[i]);
    }
    forall j | |top| <= j < |files|
      ensures !DirectlyIn(dir, files[j])
    {
      assert sub[j - |top|] in sub;
      var k :| 0 <= k < |p2| && GlobMatch(dir, p2[k], sub[j - |top|]);
      SegmentsNotDirectlyIn(dir, p2[k], sub[j - |top|]);
    }
  }

  /** A component found in the tail after a `/` is the same component of the whole path. */
  lemma TailComponent(g: Segment, rest: string, k: nat, j: nat)
    requires k < |rest| && j <= |rest[k + 1..]| && SegmentMatches(g, rest[k + 1..][j..])
    ensures SegmentMatches(g, rest[k + 1 + j..])
  {
    assert rest[k + 1..][j..] == rest[k + 1 + j..];
  }

  /** Where the last component of a matching relative path starts; it matches the last segment. */
  lemma {:induction false} LastStart(segs: RelPattern, rest: string) returns (j: nat)
    requires RelMatches(segs, rest)
    ensures j <= |rest| && (j == 0 || rest[j - 1] == '/')
    ensures SegmentMatches(segs[|segs| - 1], rest[j..])
    decreases |segs|
  {
    if |segs| == 1 {
      assert rest[0..] == rest;
      j := 0;
    } else {
      var k := SlashIndex(rest, 0).value;
      var j' := LastStart(segs[1..], rest[k + 1..]);
      assert segs[1..][|segs| - 2] == segs[|segs| - 1];
      TailComponent(segs[|segs| - 1], rest, k, j');
      assert j' == 0 || rest[k + 1..][j' - 1] == rest[k + j'];
      j := k + 1 + j';
    }
  }

  /** A path found by `glob` ends with a `/` followed by a last component matching the last segment. */
  lemma GlobLastSlash(dir: string, segs: RelPattern, f: string) returns (i: nat)
    requires GlobMatch(dir, segs, f) && segs[|segs| - 1].Star?
    ensures i + 1 < |f| && f[i] == '/'
    ensures forall k :: i < k < |f| ==> f[k] != '/'
    ensures SegmentMatches(segs[|segs| - 1], f[i + 1..])
  {
    var rest := f[|dir| + 1..];
    var j := LastStart(segs, rest);
    i := |dir| + j;
    assert f[i] == '/' by {
      if j == 0 {
        assert f[..|dir| + 1] == dir + "/";
        assert f[|dir|] == f[..|dir| + 1][|dir|];
      } else {
        assert rest[j - 1] == f[|dir| + j];
      }
    }
    assert f[i + 1..] == rest[j..];
  }

  /**
    A path found by `glob` whose pattern ends in a `*` segment has as base
    name a component matching that segment, which it ends with after a `/`.
   */
  lemma GlobBasename(dir: string, segs: RelPattern, f: string)
    requires GlobMatch(dir, segs, f) && segs[|segs| - 1].Star?
    ensures SegmentMatches(segs[|segs| - 1], Basename(f))
    ensures EndsWith(f, "/" + Basename(f))
  {
    var i := GlobLastSlash(dir, segs, f);
    BasenameAfterSlash(f, i);
    assert f[|f| - |"/" + f[i + 1..]|..] == "/" + f[i + 1..];
  }

  /**
    `basename($f, $suffix)` of a path found by a pattern whose last segment
    is `*` + `suffix`, for a suffix starting with `.`: a non-empty name that
    the path ends with, after a `/` and before the suffix.
   */
  lemma GlobBasenameStem(dir: string, segs: RelPattern, f: string, suffix: string)
    requires GlobMatch(dir, segs, f) && segs[|segs| - 1] == Star(suffix)
    requires |suffix| > 0 && suffix[0] == '.'
    ensures var name := BasenameWithSuffix(f, suffix);
      |name| > 0 && NoSlash(name) && EndsWith(f, "/" + name + suffix)
  {
    GlobBasename(dir, segs, f);
    StarStem(Basename(f), suffix);
    var b := Basename(f);
    var stem := b[..|b| - |suffix|];
    assert BasenameWithSuffix(f, suffix) == stem;
    assert "/" + b == "/" + stem + suffix;
  }

  /** Cutting a suffix starting with `.` from a component `*` + suffix matches leaves a non-empty stem. */
  lemma StarStem(b: string, suffix: string)
    requires SegmentMatches(Star(suffix), b) && |suffix| > 0 && suffix[0] == '.'
    ensures |suffix| < |b|
    ensures var stem := b[..|b| - |suffix|];
      b == stem + suffix && |stem| > 0 && NoSlash(stem)
  {
  }
}

=== FILE: modulelist.dfy ===
/**
  The module picker of the README form. A discovered module is dropped when
  its path starts with `core/modules`. It is also dropped when its path
  starts with `modules/custom` or `modules/contrib` and holds more than two
  `/`. Both are plain prefix tests with no trailing `/`. The rest map machine
  name to label (the info file's `name`, else the machine name) and are
  sorted by label with `asort`, whose comparison of two non-numeric strings
  is byte order.
 */
module ModuleList {
  import opened Wrappers
  import opened Strings
  import opened PhpArrays
  import opened Subsequences

  /** A discovered module: machine name, path below the Drupal root, and the parsed info `name`. */
  datatype Extension = Extension(machineName: string, path: string, infoName: Option<string>)

  /** The machine names are the keys of the discovery result, so no two are equal. */
  predicate DistinctNames(exts: seq<Extension>) {
    forall i, j :: 0 <= i < j < |exts| ==> exts[i].machineName != exts[j].machineName
  }

  /** The two path tests of the loop, negated: the module is not skipped. */
  predicate Keep(path: string) {
    && !StartsWith(path, "core/modules")
    && !((StartsWith(path, "modules/custom") || StartsWith(path, "modules/contrib")) && CountChar(path, '/') > 2)
  }

  /** `$info['name'] ?? $machine_name`. */
  function Label(e: Extension): string {
    e.infoName.GetOr(e.machineName)
  }

  // ---------------------------------------------------------------------
  // Byte order on strings
  // ---------------------------------------------------------------------

  /** `a` sorts before or equal to `b` in byte (lexicographic) order. */
  predicate LexLe(a: string, b: string)
    decreases |a|
  {
    |a| == 0 || (|b| > 0 && (a[0] < b[0] || (a[0] == b[0] && LexLe(a[1..], b[1..]))))
  }

  lemma {:induction false} LexLeRefl(a: string)
    ensures LexLe(a, a)
    decreases |a|
  {
    if |a| > 0 {
      LexLeRefl(a[1..]);
    }
  }

  lemma {:induction false} LexLeTotal(a: string, b: string)
    ensures LexLe(a, b) || LexLe(b, a)
    decreases |a|
  {
    if |a| > 0 && |b| > 0 && a[0] == b[0] {
      LexLeTotal(a[1..], b[1..]);
    }
  }

  lemma {:induction false} LexLeTrans(a: string, b: string, c: string)
    requires LexLe(a, b) && LexLe(b, c)
    ensures LexLe(a, c)
    decreases |a|
  {
    if |a| > 0 && a[0] == b[0] && b[0] == c[0] {
      LexLeTrans(a[1..], b[1..], c[1..]);
    }
  }

  // ---------------------------------------------------------------------
  // The filter
  // ---------------------------------------------------------------------

  /** Every discovered module as `machine name => label`, in discovery order. */
  function Entries(exts: seq<Extension>): PhpArray<string> {
    if |exts| == 0 then [] else [(exts[0].machineName, Label(exts[0]))] + Entries(exts[1..])
  }

  /**
    The loop: each kept module as `machine name => label`. The kept modules
    are listed in discovery order, since the result is drawn in order from
    the entries of all discovered modules.
   */
  function Filter(exts: seq<Extension>): (r: PhpArray<string>)
    ensures forall p :: p in r <==> exists e :: e in exts && Keep(e.path) && p == (e.machineName, Label(e))
    ensures IsSubseq(r, Entries(exts))
    ensures DistinctNames(exts) ==> DistinctKeys(r)
  {
    if |exts| == 0 then []
    else
      var e := exts[0];
      var rest := Filter(exts[1..]);
      var all := Entries(exts);
      assert all[0] == (e.machineName, Label(e)) && all[1..] == Entries(exts[1..]);
      assert forall x :: x in exts <==> x == e || x in exts[1..];
      if Keep(e.path) then
        var r := [(e.machineName, Label(e))] + rest;
        assert r[1..] == rest;
        assert DistinctNames(exts) ==> DistinctKeys(r) by {
          if DistinctNames(exts) {
            assert DistinctNames(exts[1..]);
            forall j | 0 <= j < |rest|
              ensures rest[j].0 != e.machineName
            {
              assert rest[j] in rest;
              var x :| x in exts[1..] && Keep(x.path) && rest[j] == (x.machineName, Label(x));
              var i :| 0 <= i < |exts[1..]| && exts[1..][i] == x;
              assert exts[i + 1] == x;
            }
          }
        }
        r
      else
        assert DistinctNames(exts) ==> DistinctNames(exts[1..]);
        rest
  }

  // ---------------------------------------------------------------------
  // `asort`
  // ---------------------------------------------------------------------

  /** Labels ascend. */
  predicate SortedByLabel(s: PhpArray<string>) {
    forall i, j :: 0 <= i < j < |s| ==> LexLe(s[i].1, s[j].1)
  }

  /** Put `x` after the leading entries whose labels are at most its own. */
  function Insert(x: (string, string), s: PhpArray<string>): (r: PhpArray<string>)
    ensures multiset(r) == multiset(s) + multiset{x}
  {
    if |s| == 0 then [x]
    else if !LexLe(s[0].1, x.1) then [x] + s
    else
      assert s == [s[0]] + s[1..];
      [s[0]] + Insert(x, s[1..])
  }

  /** An entry of `Insert(x, s)` is `x` or an entry of `s`. */
  lemma InsertMember(x: (string, string), s: PhpArray<string>, j: nat) returns (i: nat)
    requires j < |Insert(x, s)| && Insert(x, s)[j] != x
    ensures i < |s| && s[i] == Insert(x, s)[j]
  {
    var r := Insert(x, s);
    assert r[j] in multiset(r);
    assert r[j] in multiset(s);
    i :| 0 <= i < |s| && s[i] == r[j];
  }

  /** Inserting into a sorted array keeps it sorted. */
  lemma {:induction false} InsertSorted(x: (string, string), s: PhpArray<string>)
    requires SortedByLabel(s)
    ensures SortedByLabel(Insert(x, s))
    decreases |s|
  {
    var r := Insert(x, s);
    if |s| == 0 {
    } else if !LexLe(s[0].1, x.1) {
      LexLeTotal(s[0].1, x.1);
      forall i, j | 0 <= i < j < |r|
        ensures LexLe(r[i].1, r[j].1)
      {
        if i == 0 && j > 1 {
          LexLeTrans(x.1, s[0].1, s[j - 1].1);
        }
      }
    } else {
      var rest := Insert(x, s[1..]);
      InsertSorted(x, s[1..]);
      forall j | 0 < j < |r|
        ensures LexLe(s[0].1, r[j].1)
      {
        if rest[j - 1] != x {
          var i := InsertMember(x, s[1..], j - 1);
          assert s[i + 1] == rest[j - 1];
        }
      }
    }
  }

  /** Inserting an entry with a fresh key keeps the keys distinct. */
  lemma {:induction false} InsertDistinct(x: (string, string), s: PhpArray<string>)
    requires DistinctKeys(s) && x.0 !in Keys(s)
    ensures DistinctKeys(Insert(x, s))
    decreases |s|
  {
    var r := Insert(x, s);
    forall i | 0 <= i < |s| ensures s[i].0 != x.0 {
      assert Keys(s)[i] == s[i].0;
    }
    if |s| > 0 && LexLe(s[0].1, x.1) {
      var rest := Insert(x, s[1..]);
      assert x.0 !in Keys(s[1..]) by {
        forall i | 0 <= i < |s| - 1 ensures Keys(s[1..])[i] != x.0 {
          assert s[1..][i] == s[i + 1];
        }
      }
      InsertDistinct(x, s[1..]);
      forall j | 0 < j < |r|
        ensures r[j].0 != s[0].0
      {
        if rest[j - 1] != x {
          var i := InsertMember(x, s[1..], j - 1);
          assert s[i + 1] == rest[j - 1];
        }
      }
      assert r == [s[0]] + rest;
    } else {
      assert r == [x] + s;
    }
  }

  /** `asort` by label: insertion sort, each entry placed after the earlier ones with labels at most its own. */
  function SortByLabel(s: PhpArray<string>): (r: PhpArray<string>)
    ensures multiset(r) == multiset(s)
  {
    if |s| == 0 then []
    else
      assert s == s[..|s| - 1] + [s[|s| - 1]];
      Insert(s[|s| - 1], SortByLabel(s[..|s| - 1]))
  }

  /** The sort orders labels ascending. */
  lemma {:induction false} SortSorted(s: PhpArray<string>)
    ensures SortedByLabel(SortByLabel(s))
    decreases |s|
  {
    if |s| > 0 {
      SortSorted(s[..|s| - 1]);
      InsertSorted(s[|s| - 1], SortByLabel(s[..|s| - 1]));
    }
  }

  /** The sort keeps the keys distinct. */
  lemma {:induction false} SortDistinct(s: PhpArray<string>)
    requires DistinctKeys(s)
    ensures DistinctKeys(SortByLabel(s))
    decreases |s|
  {
    if |s| > 0 {
      var init := s[..|s| - 1];
      var x := s[|s| - 1];
      var sorted := SortByLabel(init);
      SortDistinct(init);
      forall i | 0 <= i < |sorted|
        ensures sorted[i].0 != x.0
      {
        assert sorted[i] in multiset(init);
        var k :| 0 <= k < |init| && init[k] == sorted[i];
        assert s[k] == sorted[i];
      }
      InsertDistinct(x, sorted);
    }
  }

  /** The entries of `s` whose label is `l`, in order. */
  function Labelled(s: PhpArray<string>, l: string): PhpArray<string> {
    if |s| == 0 then []
    else if s[0].1 == l then [s[0]] + Labelled(s[1..], l)
    else Labelled(s[1..], l)
  }

  lemma {:induction false} LabelledConcat(a: PhpArray<string>, b: PhpArray<string>, l: string)
    ensures Labelled(a + b, l) == Labelled(a, l) + Labelled(b, l)
    decreases |a|
  {
    if |a| == 0 {
      assert a + b == b;
    } else {
      assert (a + b)[0] == a[0] && (a + b)[1..] == a[1..] + b;
      LabelledConcat(a[1..], b, l);
      if a[0].1 == l {
        assert [a[0]] + (Labelled(a[1..], l) + Labelled(b, l)) == ([a[0]] + Labelled(a[1..], l)) + Labelled(b, l);
      }
    }
  }

  lemma {:induction false} LabelledAbsent(s: PhpArray<string>, l: string)
    requires forall i :: 0 <= i < |s| ==> s[i].1 != l
    ensures Labelled(s, l) == []
    decreases |s|
  {
    if |s| > 0 {
      LabelledAbsent(s[1..], l);
    }
  }

  /** Inserting an entry leaves the entries with another label as they were. */
  lemma {:induction false} InsertOtherLabel(x: (string, string), s: PhpArray<string>, l: string)
    requires x.1 != l
    ensures Labelled(Insert(x, s), l) == Labelled(s, l)
    decreases |s|
  {
    if |s| > 0 && LexLe(s[0].1, x.1) {
      var rest := Insert(x, s[1..]);
      InsertOtherLabel(x, s[1..], l);
      assert ([s[0]] + rest)[0] == s[0] && ([s[0]] + rest)[1..] == rest;
    }
  }

  /** Inserting into a sorted array puts `x` after every entry with the same label. */
  lemma {:induction false} InsertSameLabel(x: (string, string), s: PhpArray<string>)
    requires SortedByLabel(s)
    ensures Labelled(Insert(x, s), x.1) == Labelled(s, x.1) + [x]
    decreases |s|
  {
    var l := x.1;
    if |s| == 0 {
      assert [x][1..] == [];
    } else if !LexLe(s[0].1, l) {
      LexLeRefl(l);
      assert forall i :: 0 <= i < |s| ==> s[i].1 != l;
      LabelledAbsent(s, l);
      assert ([x] + s)[0] == x && ([x] + s)[1..] == s;
    } else {
      var rest := Insert(x, s[1..]);
      InsertSameLabel(x, s[1..]);
      assert ([s[0]] + rest)[0] == s[0] && ([s[0]] + rest)[1..] == rest;
    }
  }

  /** `asort` is stable: entries with equal labels keep their relative order. */
  lemma {:induction false} SortStable(s: PhpArray<string>, l: string)
    ensures Labelled(SortByLabel(s), l) == Labelled(s, l)
    decreases |s|
  {
    if |s| > 0 {
      var init := s[..|s| - 1];
      var x := s[|s| - 1];
      assert s == init + [x];
      LabelledConcat(init, [x], l);
      assert [x][1..] == [];
      SortStable(init, l);
      var sorted := SortByLabel(init);
      if x.1 == l {
        SortSorted(init);
        InsertSameLabel(x, sorted);
      } else {
        InsertOtherLabel(x, sorted, l);
      }
    }
  }

  /**
    `getTopLevelCustomAndContribModules`. A discovered module is listed, under
    its machine name and with its label, exactly when its path does not start
    with `core/modules` and, if it starts with `modules/custom` or
    `modules/contrib`, holds at most two `/`. Machine names appear once each,
    labels ascend, and nothing but the kept modules is listed.
   */
  function TopLevelCustomAndContribModules(exts: seq<Extension>): (r: PhpArray<string>)
    requires DistinctNames(exts)
    ensures forall e :: e in exts ==>
      ((e.machineName, Label(e)) in r <==>
        && !StartsWith(e.path, "core/modules")
        && ((StartsWith(e.path, "modules/custom") || StartsWith(e.path, "modules/contrib")) ==> CountChar(e.path, '/') <= 2))
    ensures forall p :: p in r ==> exists e :: e in exts && Keep(e.path) && p == (e.machineName, Label(e))
    ensures DistinctKeys(r)
    ensures SortedByLabel(r)
    ensures multiset(r) == multiset(Filter(exts))
    ensures forall l :: Labelled(r, l) == Labelled(Filter(exts), l)
  {
    var kept := Filter(exts);
    var r := SortByLabel(kept);
    SortSorted(kept);
    forall l
      ensures Labelled(r, l) == Labelled(kept, l)
    {
      SortStable(kept, l);
    }
    SortDistinct(kept);
    assert forall p :: p in r <==> p in kept by {
      forall p
        ensures p in r <==> p in kept
      {
        assert p in r <==> p in multiset(r);
        assert p in kept <==> p in multiset(kept);
      }
    }
    forall e | e in exts && (e.machineName, Label(e)) in r
      ensures Keep(e.path)
    {
      var x :| x in exts && Keep(x.path) && (e.machineName, Label(e)) == (x.machineName, Label(x));
      var i :| 0 <= i < |exts| && exts[i] == e;
      var j :| 0 <= j < |exts| && exts[j] == x;
      assert i == j;
    }
    r
  }
}

=== FILE: phparray.dfy ===
/**
  PHP arrays with string keys, as the scanner builds and merges them: an
  ordered list of key/value pairs whose keys are pairwise distinct.
 */
module PhpArrays {
  import opened Wrappers

  type PhpArray<V> = seq<(string, V)>

  function Keys<V>(a: PhpArray<V>): (ks: seq<string>)
    ensures |ks| == |a| && forall i :: 0 <= i < |a| ==> ks[i] == a[i].0
  {
    seq(|a|, i requires 0 <= i < |a| => a[i].0)
  }

  predicate DistinctKeys<V>(a: PhpArray<V>) {
    forall i, j :: 0 <= i < j < |a| ==> a[i].0 != a[j].0
  }

  /** `$a[$k] ?? null`: the value stored under `k`. */
  function Lookup<V>(a: PhpArray<V>, k: string): (r: Option<V>)
    ensures r.Some? <==> k in Keys(a)
    ensures r.Some? ==> exists i :: 0 <= i < |a| && a[i] == (k, r.value)
  {
    if |a| == 0 then None
    else if a[0].0 == k then
      assert Keys(a)[0] == k;
      Some(a[0].1)
    else
      var r := Lookup(a[1..], k);
      assert Keys(a) == [a[0].0] + Keys(a[1..]);
      assert r.Some? ==> exists i :: 0 <= i < |a| && a[i] == (k, r.value) by {
        if r.Some? {
          var i :| 0 <= i < |a[1..]| && a[1..][i] == (k, r.value);
          assert a[i + 1] == (k, r.value);
        }
      }
      r
  }

  /**
    `$a[$k] = $v`: a key already present keeps its place and takes the new
    value; a new key is appended.
   */
  function Put<V>(a: PhpArray<V>, k: string, v: V): (r: PhpArray<V>)
    ensures (forall i :: 0 <= i < |a| ==> a[i].0 != k) ==> r == a + [(k, v)]
  {
    if |a| == 0 then [(k, v)]
    else if a[0].0 == k then [(k, v)] + a[1..]
    else
      assert a == [a[0]] + a[1..];
      [a[0]] + Put(a[1..], k, v)
  }

  /** After `$a[$k] = $v`, `k` holds `v` and every other key what it held before. */
  lemma {:induction false} PutLookup<V>(a: PhpArray<V>, k: string, v: V, k': string)
    ensures Lookup(Put(a, k, v), k') == if k' == k then Some(v) else Lookup(a, k')
    decreases |a|
  {
    if |a| > 0 && a[0].0 != k {
      PutLookup(a[1..], k, v, k');
      assert ([a[0]] + Put(a[1..], k, v))[1..] == Put(a[1..], k, v);
    }
  }

  /** `array_merge($a, $b)` for string keys: the entries of `b` are put into `a` in order. */
  function Merge<V>(a: PhpArray<V>, b: PhpArray<V>): PhpArray<V>
    decreases |b|
  {
    if |b| == 0 then a else Merge(Put(a, b[0].0, b[0].1), b[1..])
  }

  /** A later array's value wins; keys only in the earlier array keep theirs. */
  lemma {:induction false} MergeLookup<V>(a: PhpArray<V>, b: PhpArray<V>, k: string)
    requires DistinctKeys(b)
    ensures Lookup(Merge(a, b), k) == if k in Keys(b) then Lookup(b, k) else Lookup(a, k)
    decreases |b|
  {
    if |b| > 0 {
      assert Keys(b) == [b[0].0] + Keys(b[1..]);
      MergeLookup(Put(a, b[0].0, b[0].1), b[1..], k);
      PutLookup(a, b[0].0, b[0].1, k);
      if k == b[0].0 {
        assert k !in Keys(b[1..]);
      }
    }
  }

  /** When no key is shared, `array_merge` overwrites nothing: it is concatenation. */
  lemma {:induction false} MergeDisjoint<V>(a: PhpArray<V>, b: PhpArray<V>)
    requires DistinctKeys(b)
    requires forall i, j :: 0 <= i < |a| && 0 <= j < |b| ==> a[i].0 != b[j].0
    ensures Merge(a, b) == a + b
    decreases |b|
  {
    if |b| > 0 {
      var a' := Put(a, b[0].0, b[0].1);
      assert a' == a + [b[0]];
      MergeDisjoint(a', b[1..]);
      assert a' + b[1..] == a + b;
    }
  }

  /**
    Two arrays whose keys are consecutive runs of one list of distinct keys
    share no key, so merging them concatenates them.
   */
  lemma MergeRuns<V>(a: PhpArray<V>, b: PhpArray<V>, ks: seq<string>)
    requires |a| + |b| <= |ks| && forall i, j :: 0 <= i < j < |ks| ==> ks[i] != ks[j]
    requires forall i :: 0 <= i < |a| ==> a[i].0 == ks[i]
    requires forall i :: 0 <= i < |b| ==> b[i].0 == ks[|a| + i]
    ensures Merge(a, b) == a + b
    ensures forall i :: 0 <= i < |a + b| ==> (a + b)[i].0 == ks[i]
  {
    forall i, j | 0 <= i < j < |b| ensures b[i].0 != b[j].0 {
      assert b[i].0 == ks[|a| + i] && b[j].0 == ks[|a| + j];
    }
    forall i, j | 0 <= i < |a| && 0 <= j < |b| ensures a[i].0 != b[j].0 {
      assert a[i].0 == ks[i] && b[j].0 == ks[|a| + j];
    }
    MergeDisjoint(a, b);
    forall i | 0 <= i < |a + b| ensures (a + b)[i].0 == ks[i] {
      if i >= |a| {
        assert (a + b)[i] == b[i - |a|];
      }
    }
  }
}

=== FILE: regex.dfy ===
/**
  The three regular expressions of the scanner, as deterministic left-to-right
  matchers over the raw text of a file:

    function\s+(\w+)\s*\(             a function declaration
    class\s+(\w+)                     a class declaration
    function\s+(hook_[a-zA-Z_]+)\s*\(  a hook implementation

  The patterns carry no `u` flag, so `\w` is `[A-Za-z0-9_]` and `\s` is space
  plus the control characters 9 to 13 (tab, line feed, vertical tab, form feed,
  carriage return). Because `\s`, `\w` and `(` are pairwise disjoint, each
  pattern needs no backtracking: a greedy pass finds the only possible split.
  `RegexMatch` states the backtracking semantics declaratively and
  `MatchAtIsRegexMatch` proves the greedy matcher equal to it.
 */
module Regex {
  import opened Wrappers
  import opened Strings
  import opened Subsequences
  import opened LeftmostScan

  predicate IsSpace(c: char) {
    c == ' ' || ('\t' <= c <= '\r')
  }

  predicate IsWord(c: char) {
    ('a' <= c <= 'z') || ('A' <= c <= 'Z') || ('0' <= c <= '9') || c == '_'
  }

  /** The class `[a-zA-Z_]` of the hook pattern. */
  predicate IsHookChar(c: char) {
    ('a' <= c <= 'z') || ('A' <= c <= 'Z') || c == '_'
  }

  datatype CharClass = Space | Word | HookTail

  predicate InClass(k: CharClass, c: char) {
    match k
    case Space => IsSpace(c)
    case Word => IsWord(c)
    case HookTail => IsHookChar(c)
  }

  /** Every character of `s[lo..hi]` belongs to class `k`. */
  predicate AllIn(k: CharClass, s: string, lo: nat, hi: nat)
    requires lo <= hi <= |s|
  {
    forall m :: lo <= m < hi ==> InClass(k, s[m])
  }

  /** The end of the longest run of class `k` starting at `i` (a greedy `+` or `*`). */
  function Span(k: CharClass, s: string, i: nat): (j: nat)
    requires i <= |s|
    ensures i <= j <= |s| && AllIn(k, s, i, j)
    ensures j == |s| || !InClass(k, s[j])
    decreases |s| - i
  {
    if i < |s| && InClass(k, s[i]) then Span(k, s, i + 1) else i
  }

  /** A run that ends where the class stops is the run `Span` finds. */
  lemma SpanExact(k: CharClass, s: string, i: nat, j: nat)
    requires i <= j <= |s| && AllIn(k, s, i, j)
    requires j == |s| || !InClass(k, s[j])
    ensures Span(k, s, i) == j
  {
  }

  datatype Pattern = FunctionDecl | ClassDecl | HookDecl

  /** The `\s*\(` tail after a capture `s[a..b]` of a match starting at `i`. */
  function ParenTail(s: string, i: nat, a: nat, b: nat): (r: Option<Hit>)
    requires i < a < b <= |s|
    ensures r.Some? ==> r.value.start == i && b < r.value.end <= |s| && r.value.name == s[a..b]
  {
    var c := Span(Space, s, b);
    if c < |s| && s[c] == '(' then Some(Hit(i, s[a..b], c + 1)) else None
  }

  /** `class\s+(\w+)` anchored at `i`. */
  function MatchClass(s: string, i: nat): (r: Option<Hit>)
    requires i <= |s|
    ensures r.Some? ==> r.value.start == i < r.value.end <= |s| && |r.value.name| > 0
  {
    if !OccursAt(s, "class", i) then None
    else
      var a := Span(Space, s, i + 5);
      if a == i + 5 then None
      else
        var b := Span(Word, s, a);
        if b == a then None else Some(Hit(i, s[a..b], b))
  }

  /** `function\s+(\w+)\s*\(` anchored at `i`. */
  function MatchFunction(s: string, i: nat): (r: Option<Hit>)
    requires i <= |s|
    ensures r.Some? ==> r.value.start == i < r.value.end <= |s| && |r.value.name| > 0
  {
    if !OccursAt(s, "function", i) then None
    else
      var a := Span(Space, s, i + 8);
      if a == i + 8 then None
      else
        var b := Span(Word, s, a);
        if b == a then None else ParenTail(s, i, a, b)
  }

  /** `function\s+(hook_[a-zA-Z_]+)\s*\(` anchored at `i`. */
  function MatchHook(s: string, i: nat): (r: Option<Hit>)
    requires i <= |s|
    ensures r.Some? ==> r.value.start == i < r.value.end <= |s| && |r.value.name| > 0
  {
    if !OccursAt(s, "function", i) then None
    else
      var a := Span(Space, s, i + 8);
      if a == i + 8 || !OccursAt(s, "hook_", a) then None
      else
        var b := Span(HookTail, s, a + 5);
        if b == a + 5 then None else ParenTail(s, i, a, b)
  }

  function MatchAt(p: Pattern, s: string, i: nat): (r: Option<Hit>)
    requires i <= |s|
    ensures r.Some? ==> r.value.start == i < r.value.end <= |s| && |r.value.name| > 0
  {
    match p
    case FunctionDecl => MatchFunction(s, i)
    case ClassDecl => MatchClass(s, i)
    case HookDecl => MatchHook(s, i)
  }

  /** `class`, then `\s+` ending at `a`, then the greedy `\w+` capture `s[a..b]`. */
  ghost predicate ClassShape(s: string, i: nat, a: nat, b: nat) {
    && i + 5 < a < b <= |s|
    && OccursAt(s, "class", i)
    && AllIn(Space, s, i + 5, a)
    && AllIn(Word, s, a, b)
    && (b == |s| || !IsWord(s[b]))
  }

  /** `function`, `\s+` to `a`, the capture `s[a..b]`, `\s*` to `c`, then `(` at `c`. */
  ghost predicate FunctionShape(s: string, i: nat, a: nat, b: nat, c: nat) {
    && i + 8 < a < b <= c < |s|
    && OccursAt(s, "function", i)
    && AllIn(Space, s, i + 8, a)
    && AllIn(Word, s, a, b)
    && AllIn(Space, s, b, c)
    && s[c] == '('
  }

  /** Like `FunctionShape`, with the capture `hook_` followed by `[a-zA-Z_]+`. */
  ghost predicate HookShape(s: string, i: nat, a: nat, b: nat, c: nat) {
    && i + 8 < a && a + 5 < b <= c < |s|
    && OccursAt(s, "function", i)
    && AllIn(Space, s, i + 8, a)
    && OccursAt(s, "hook_", a)
    && AllIn(HookTail, s, a + 5, b)
    && AllIn(Space, s, b, c)
    && s[c] == '('
  }

  /**
    The regular-expression semantics: `h` is a match of `p` at `i` for some
    choice of split points. For the two patterns ending in `\(` any split will
    do; for the class pattern, whose capture ends the pattern, the greedy `\w+`
    takes the longest run, as PCRE does.
   */
  ghost predicate RegexMatch(p: Pattern, s: string, i: nat, h: Hit) {
    match p
    case ClassDecl =>
      exists a: nat, b: nat :: ClassShape(s, i, a, b) && h == Hit(i, s[a..b], b)
    case FunctionDecl =>
      exists a: nat, b: nat, c: nat :: FunctionShape(s, i, a, b, c) && h == Hit(i, s[a..b], c + 1)
    case HookDecl =>
      exists a: nat, b: nat, c: nat :: HookShape(s, i, a, b, c) && h == Hit(i, s[a..b], c + 1)
  }

  lemma ClassMatchIsRegexMatch(s: string, i: nat, h: Hit)
    requires i <= |s|
    ensures MatchClass(s, i) == Some(h) <==> RegexMatch(ClassDecl, s, i, h)
  {
    if MatchClass(s, i) == Some(h) {
      var a := Span(Space, s, i + 5);
      var b := Span(Word, s, a);
      assert ClassShape(s, i, a, b);
    }
    if RegexMatch(ClassDecl, s, i, h) {
      var a: nat, b: nat :| ClassShape(s, i, a, b) && h == Hit(i, s[a..b], b);
      SpanExact(Space, s, i + 5, a);
      SpanExact(Word, s, a, b);
    }
  }

  /** The split the greedy function matcher chooses. */
  lemma FunctionMatchShape(s: string, i: nat)
    requires i <= |s| && MatchFunction(s, i).Some?
    ensures exists a: nat, b: nat, c: nat ::
      FunctionShape(s, i, a, b, c) && MatchFunction(s, i).value == Hit(i, s[a..b], c + 1)
  {
    var a := Span(Space, s, i + 8);
    var b := Span(Word, s, a);
    var c := Span(Space, s, b);
    assert FunctionShape(s, i, a, b, c);
  }

  /** Any split of the function pattern is the one the greedy matcher finds. */
  lemma FunctionShapeMatches(s: string, i: nat, a: nat, b: nat, c: nat)
    requires FunctionShape(s, i, a, b, c)
    ensures MatchFunction(s, i) == Some(Hit(i, s[a..b], c + 1))
  {
    SpanExact(Space, s, i + 8, a);
    assert b < c ==> IsSpace(s[b]);
    SpanExact(Word, s, a, b);
    SpanExact(Space, s, b, c);
  }

  lemma FunctionMatchIsRegexMatch(s: string, i: nat, h: Hit)
    requires i <= |s|
    ensures MatchFunction(s, i) == Some(h) <==> RegexMatch(FunctionDecl, s, i, h)
  {
    if MatchFunction(s, i) == Some(h) {
      FunctionMatchShape(s, i);
    }
    if RegexMatch(FunctionDecl, s, i, h) {
      var a: nat, b: nat, c: nat :| FunctionShape(s, i, a, b, c) && h == Hit(i, s[a..b], c + 1);
      FunctionShapeMatches(s, i, a, b, c);
    }
  }

  /** The split the greedy hook matcher chooses. */
  lemma HookMatchShape(s: string, i: nat)
    requires i <= |s| && MatchHook(s, i).Some?
    ensures exists a: nat, b: nat, c: nat ::
      HookShape(s, i, a, b, c) && MatchHook(s, i).value == Hit(i, s[a..b], c + 1)
  {
    var a := Span(Space, s, i + 8);
    var b := Span(HookTail, s, a + 5);
    var c := Span(Space, s, b);
    assert HookShape(s, i, a, b, c);
  }

  /** Any split of the hook pattern is the one the greedy matcher finds. */
  lemma HookShapeMatches(s: string, i: nat, a: nat, b: nat, c: nat)
    requires HookShape(s, i, a, b, c)
    ensures MatchHook(s, i) == Some(Hit(i, s[a..b], c + 1))
  {
    assert s[a] == s[a..a + 5][0];
    SpanExact(Space, s, i + 8, a);
    assert b < c ==> IsSpace(s[b]);
    SpanExact(HookTail, s, a + 5, b);
    SpanExact(Space, s, b, c);
  }

  lemma HookMatchIsRegexMatch(s: string, i: nat, h: Hit)
    requires i <= |s|
    ensures MatchHook(s, i) == Some(h) <==> RegexMatch(HookDecl, s, i, h)
  {
    if MatchHook(s, i) == Some(h) {
      HookMatchShape(s, i);
    }
    if RegexMatch(HookDecl, s, i, h) {
      var a: nat, b: nat, c: nat :| HookShape(s, i, a, b, c) && h == Hit(i, s[a..b], c + 1);
      HookShapeMatches(s, i, a, b, c);
    }
  }

  /**
    The greedy matcher finds exactly the regular-expression matches, in both
    directions; in particular a pattern has at most one match at each index.
   */
  lemma MatchAtIsRegexMatch(p: Pattern, s: string, i: nat, h: Hit)
    requires i <= |s|
    ensures MatchAt(p, s, i) == Some(h) <==> RegexMatch(p, s, i, h)
  {
    match p
    case ClassDecl => ClassMatchIsRegexMatch(s, i, h);
    case FunctionDecl => FunctionMatchIsRegexMatch(s, i, h);
    case HookDecl => HookMatchIsRegexMatch(s, i, h);
  }

  /** The match of `p` anchored at each index of `s`. */
  function Table(p: Pattern, s: string): (t: MatchTable)
    ensures |t| == |s| && WellFormed(t)
    ensures forall i :: 0 <= i < |s| ==> t[i] == MatchAt(p, s, i)
  {
    seq(|s|, i requires 0 <= i < |s| => MatchAt(p, s, i))
  }

  /** `preg_match_all` of pattern `p` over `s`: its matches, left to right, never overlapping. */
  function Matches(p: Pattern, s: string): seq<Hit> {
    ScanTable(Table(p, s), 0)
  }

  /** `preg_match` of pattern `p` over `s`: its first match. */
  function FirstMatch(p: Pattern, s: string): Option<Hit> {
    FirstIn(Table(p, s), 0)
  }

  /**
    `Matches` is the leftmost match list: every entry is a regular-expression
    match, entries are ordered and disjoint, every match of `p` lies within
    an entry, and no other list has these properties.
   */
  lemma MatchesAreLeftmost(p: Pattern, s: string, hs: seq<Hit>)
    ensures hs == Matches(p, s) <==> Leftmost(Table(p, s), 0, hs)
    ensures hs == Matches(p, s) ==>
      forall k :: 0 <= k < |hs| ==> hs[k].start <= |s| && RegexMatch(p, s, hs[k].start, hs[k])
  {
    ScanCharacterization(Table(p, s), 0, hs);
    if hs == Matches(p, s) {
      forall k | 0 <= k < |hs|
        ensures RegexMatch(p, s, hs[k].start, hs[k])
      {
        MatchAtIsRegexMatch(p, s, hs[k].start, hs[k]);
      }
    }
  }

  /** `preg_match` finds the first of the matches `preg_match_all` finds, or none when there are none. */
  lemma FirstMatchIsFirstOfMatches(p: Pattern, s: string)
    ensures var hs := Matches(p, s);
      FirstMatch(p, s) == if |hs| > 0 then Some(hs[0]) else None
  {
    FirstIsFirstHit(Table(p, s), 0);
  }

  /** Every split of the hook pattern is a split of the function pattern. */
  lemma HookShapeIsFunctionShape(s: string, i: nat, a: nat, b: nat, c: nat)
    requires HookShape(s, i, a, b, c)
    ensures FunctionShape(s, i, a, b, c)
  {
    assert forall j :: 0 <= j < 5 ==> IsWord("hook_"[j]);
    forall m | a <= m < a + 5
      ensures IsWord(s[m])
    {
      assert s[m] == s[a..a + 5][m - a];
    }
  }

  /** A hook match is also a function match, with the same name and the same end. */
  lemma HookIsFunction(s: string, i: nat)
    requires i <= |s| && MatchHook(s, i).Some?
    ensures MatchFunction(s, i) == MatchHook(s, i)
  {
    HookMatchShape(s, i);
    var a: nat, b: nat, c: nat :| HookShape(s, i, a, b, c) && MatchHook(s, i).value == Hit(i, s[a..b], c + 1);
    HookShapeIsFunctionShape(s, i, a, b, c);
    FunctionShapeMatches(s, i, a, b, c);
  }

  /** Without a leading `f` at `m`, no function or hook match starts there. */
  lemma NoHookWithoutF(s: string, m: nat)
    requires m < |s| && s[m] != 'f'
    ensures MatchHook(s, m).None?
  {
    assert m + 8 <= |s| ==> s[m..m + 8][0] == s[m];
  }

  /** No hook match starts inside the captured name of a function match. */
  lemma NoHookInName(s: string, i: nat, a: nat, b: nat, c: nat, m: nat)
    requires FunctionShape(s, i, a, b, c) && a <= m < b
    ensures MatchHook(s, m).None?
  {
    assert !IsWord(s[b]) by {
      assert b < c ==> IsSpace(s[b]);
    }
    if m + 8 < b {
      SpanExact(Space, s, m + 8, m + 8);
    } else if m + 8 == b {
      SpanExact(Space, s, b, c);
      assert c + 5 <= |s| ==> s[c..c + 5][0] == s[c];
    } else {
      assert m + 8 <= |s| ==> s[m..m + 8][b - m] == s[b];
      assert forall j :: 0 <= j < 8 ==> IsWord("function"[j]);
    }
  }

  /** No hook match starts strictly inside a function match. */
  lemma NoHookInsideFunction(s: string, i: nat, m: nat)
    requires i <= |s| && MatchFunction(s, i).Some?
    requires i < m < MatchFunction(s, i).value.end
    ensures MatchHook(s, m).None?
  {
    FunctionMatchShape(s, i);
    var a: nat, b: nat, c: nat :| FunctionShape(s, i, a, b, c) && MatchFunction(s, i).value == Hit(i, s[a..b], c + 1);
    if m < i + 8 {
      assert s[m] == s[i..i + 8][m - i];
      NoHookWithoutF(s, m);
    } else if a <= m < b {
      NoHookInName(s, i, a, b, c, m);
    } else {
      assert m < c ==> IsSpace(s[m]);
      NoHookWithoutF(s, m);
    }
  }

  /** The hook table narrows the function table. */
  lemma HookTableNarrowsFunctionTable(s: string)
    ensures Narrows(Table(HookDecl, s), Table(FunctionDecl, s))
  {
    forall i | 0 <= i < |s| && MatchHook(s, i).Some?
      ensures MatchFunction(s, i) == MatchHook(s, i)
    {
      HookIsFunction(s, i);
    }
    forall i, m | 0 <= i < m < |s| && MatchFunction(s, i).Some? && m < MatchFunction(s, i).value.end
      ensures MatchHook(s, m).None?
    {
      NoHookInsideFunction(s, i, m);
    }
  }

  /**
    Within one text, the hook matches form an in-order subsequence of the
    function matches: every hook is also reported as a function.
   */
  lemma HooksAreFunctions(s: string)
    ensures IsSubseq(Matches(HookDecl, s), Matches(FunctionDecl, s))
  {
    HookTableNarrowsFunctionTable(s);
    NarrowScanIsSubseq(Table(HookDecl, s), Table(FunctionDecl, s), 0);
  }

  /** Every match `preg_match_all` reports is a regular-expression match where it starts. */
  lemma ReportedIsRegexMatch(p: Pattern, s: string, h: Hit)
    requires h in Matches(p, s)
    ensures h.start < |s| && RegexMatch(p, s, h.start, h)
  {
    var hs := Matches(p, s);
    MatchesAreLeftmost(p, s, hs);
    var k :| 0 <= k < |hs| && hs[k] == h;
  }

  /** The capture of a hook split is `hook_` followed by letters or underscores. */
  lemma HookShapeName(s: string, i: nat, a: nat, b: nat, c: nat)
    requires HookShape(s, i, a, b, c)
    ensures var name := s[a..b];
      && |name| > 5 && name[..5] == "hook_"
      && forall m :: 5 <= m < |name| ==> IsHookChar(name[m])
  {
    var name := s[a..b];
    assert name[..5] == s[a..a + 5];
    forall m | 5 <= m < |name|
      ensures IsHookChar(name[m])
    {
      assert name[m] == s[a + m];
      assert InClass(HookTail, s[a + m]);
    }
  }

  /** A reported hook name is `hook_` followed by at least one letter or underscore. */
  lemma HookNames(s: string, h: Hit)
    requires h in Matches(HookDecl, s)
    ensures |h.name| > 5 && h.name[..5] == "hook_"
    ensures forall m :: 5 <= m < |h.name| ==> IsHookChar(h.name[m])
  {
    ReportedIsRegexMatch(HookDecl, s, h);
    var a: nat, b: nat, c: nat :| HookShape(s, h.start, a, b, c) && h == Hit(h.start, s[a..b], c + 1);
    HookShapeName(s, h.start, a, b, c);
  }

  /** The capture `s[a..b]` of a word run is a non-empty run of word characters. */
  lemma WordRunName(s: string, a: nat, b: nat)
    requires a < b <= |s| && AllIn(Word, s, a, b)
    ensures |s[a..b]| > 0 && forall m :: 0 <= m < |s[a..b]| ==> IsWord(s[a..b][m])
  {
    forall m | 0 <= m < b - a
      ensures IsWord(s[a..b][m])
    {
      assert s[a..b][m] == s[a + m];
      assert InClass(Word, s[a + m]);
    }
  }

  /** A reported function or class name is a non-empty run of word characters. */
  lemma DeclaredNames(p: Pattern, s: string, h: Hit)
    requires p != HookDecl && h in Matches(p, s)
    ensures |h.name| > 0 && forall m :: 0 <= m < |h.name| ==> IsWord(h.name[m])
  {
    ReportedIsRegexMatch(p, s, h);
    if p == ClassDecl {
      var a: nat, b: nat :| ClassShape(s, h.start, a, b) && h == Hit(h.start, s[a..b], b);
      WordRunName(s, a, b);
    } else {
      var a: nat, b: nat, c: nat :| FunctionShape(s, h.start, a, b, c) && h == Hit(h.start, s[a..b], c + 1);
      WordRunName(s, a, b);
    }
  }
}

=== FILE: scan.dfy ===
/**
  Global matching (`preg_match_all`) and first matching (`preg_match`) over a
  match table: entry `i` of the table is the match anchored at index `i` of
  the subject, if any. Searching resumes at the end of each match, or one
  character further after a failure.
 */
module LeftmostScan {
  import opened Wrappers
  import opened Subsequences

  /** One match: where it starts, the captured identifier, and where it ends. */
  datatype Hit = Hit(start: nat, name: string, end: nat)

  type MatchTable = seq<Option<Hit>>

  /** Each match is anchored where the table says, is non-empty and stays in the subject. */
  predicate WellFormed(t: MatchTable) {
    forall i :: 0 <= i < |t| && t[i].Some? ==> t[i].value.start == i < t[i].value.end <= |t|
  }

  /** The matches found from index `i` on, in the order the search meets them. */
  function ScanTable(t: MatchTable, i: nat): (hs: seq<Hit>)
    requires WellFormed(t) && i <= |t|
    ensures forall k :: 0 <= k < |hs| ==> i <= hs[k].start < hs[k].end <= |t|
    decreases |t| - i
  {
    if i == |t| then []
    else
      match t[i]
      case Some(h) => [h] + ScanTable(t, h.end)
      case None => ScanTable(t, i + 1)
  }

  /** Some match starts at index `m`. */
  predicate StartsAt(t: MatchTable, m: nat)
    requires m < |t|
  {
    t[m].Some?
  }

  /**
    `hs` is the leftmost non-overlapping match list from `from`: every entry is
    a match, the entries are in order without overlap, and every match
    starting at or after `from` lies within some entry.
   */
  ghost predicate Leftmost(t: MatchTable, from: nat, hs: seq<Hit>)
    requires from <= |t|
  {
    && (forall k :: 0 <= k < |hs| ==>
          from <= hs[k].start < hs[k].end <= |t| && t[hs[k].start] == Some(hs[k]))
    && (forall j, k :: 0 <= j < k < |hs| ==> hs[j].end <= hs[k].start)
    && (forall m :: from <= m < |t| && StartsAt(t, m) ==>
          exists k :: 0 <= k < |hs| && hs[k].start <= m < hs[k].end)
  }

  /** A match at `i` followed by the leftmost list from its end is leftmost from `i`. */
  lemma LeftmostCons(t: MatchTable, i: nat, h: Hit, rest: seq<Hit>)
    requires WellFormed(t) && i < |t| && t[i] == Some(h) && Leftmost(t, h.end, rest)
    ensures Leftmost(t, i, [h] + rest)
  {
    var hs := [h] + rest;
    assert forall k :: 0 < k < |hs| ==> hs[k] == rest[k - 1];
    forall m | i <= m < |t| && StartsAt(t, m)
      ensures exists k :: 0 <= k < |hs| && hs[k].start <= m < hs[k].end
    {
      if m < h.end {
        assert hs[0].start <= m < hs[0].end;
      } else {
        var k :| 0 <= k < |rest| && rest[k].start <= m < rest[k].end;
        assert hs[k + 1] == rest[k];
      }
    }
  }

  lemma {:induction false} ScanIsLeftmost(t: MatchTable, i: nat)
    requires WellFormed(t) && i <= |t|
    ensures Leftmost(t, i, ScanTable(t, i))
    decreases |t| - i
  {
    if i < |t| {
      match t[i]
      case Some(h) =>
        ScanIsLeftmost(t, h.end);
        LeftmostCons(t, i, h, ScanTable(t, h.end));
      case None =>
        ScanIsLeftmost(t, i + 1);
    }
  }

  lemma {:induction false} LeftmostIsScan(t: MatchTable, from: nat, hs: seq<Hit>)
    requires WellFormed(t) && from <= |t| && Leftmost(t, from, hs)
    ensures hs == ScanTable(t, from)
    decreases |t| - from
  {
    assert |hs| > 0 ==> from <= hs[0].start < hs[0].end <= |t|;
    if from < |t| {
      match t[from]
      case Some(h) =>
        assert StartsAt(t, from);
        var k :| 0 <= k < |hs| && hs[k].start <= from < hs[k].end;
        assert k == 0;
        var tail := hs[1..];
        assert Leftmost(t, h.end, tail) by {
          assert forall j :: 0 <= j < |tail| ==> tail[j] == hs[j + 1];
          forall m | h.end <= m < |t| && StartsAt(t, m)
            ensures exists j :: 0 <= j < |tail| && tail[j].start <= m < tail[j].end
          {
            var k' :| 0 <= k' < |hs| && hs[k'].start <= m < hs[k'].end;
            assert k' > 0;
            assert tail[k' - 1] == hs[k'];
          }
        }
        LeftmostIsScan(t, h.end, tail);
        assert hs == [h] + tail;
      case None =>
        assert forall k :: 0 <= k < |hs| ==> hs[k].start != from;
        LeftmostIsScan(t, from + 1, hs);
    }
  }

  /** The scan is the one and only leftmost non-overlapping match list. */
  lemma ScanCharacterization(t: MatchTable, from: nat, hs: seq<Hit>)
    requires WellFormed(t) && from <= |t|
    ensures Leftmost(t, from, hs) <==> hs == ScanTable(t, from)
  {
    ScanIsLeftmost(t, from);
    if Leftmost(t, from, hs) {
      LeftmostIsScan(t, from, hs);
    }
  }

  /** The first match at or after index `i`. */
  function FirstIn(t: MatchTable, i: nat): (r: Option<Hit>)
    requires WellFormed(t) && i <= |t|
    ensures r.Some? ==> i <= r.value.start < |t| && t[r.value.start] == r
    ensures r.Some? ==> forall m :: i <= m < r.value.start ==> t[m].None?
    ensures r.None? ==> forall m :: i <= m < |t| ==> t[m].None?
    decreases |t| - i
  {
    if i == |t| then None
    else
      match t[i]
      case Some(h) => Some(h)
      case None => FirstIn(t, i + 1)
  }

  /** The single match of a first-match search heads the global match list. */
  lemma {:induction false} FirstIsFirstHit(t: MatchTable, i: nat)
    requires WellFormed(t) && i <= |t|
    ensures var hs := ScanTable(t, i);
      FirstIn(t, i) == if |hs| > 0 then Some(hs[0]) else None
    decreases |t| - i
  {
    if i < |t| && t[i].None? {
      FirstIsFirstHit(t, i + 1);
    }
  }

  /** Positions where nothing matches can be skipped without changing the scan. */
  lemma {:induction false} SkipNoMatch(t: MatchTable, lo: nat, hi: nat)
    requires WellFormed(t) && lo <= hi <= |t|
    requires forall m :: lo <= m < hi ==> t[m].None?
    ensures ScanTable(t, lo) == ScanTable(t, hi)
    decreases hi - lo
  {
    if lo < hi {
      SkipNoMatch(t, lo + 1, hi);
    }
  }

  /**
    Table `sub` is a narrowing of table `sup`: whatever `sub` matches, `sup`
    matches identically, and nothing in `sub` starts strictly inside a match of `sup`.
   */
  ghost predicate Narrows(sub: MatchTable, sup: MatchTable) {
    && |sub| == |sup|
    && (forall i :: 0 <= i < |sub| && sub[i].Some? ==> sup[i] == sub[i])
    && (forall i, m :: 0 <= i < m < |sup| && sup[i].Some? && m < sup[i].value.end ==> sub[m].None?)
  }

  /** The matches of a narrowing are an in-order subsequence of the wider matches. */
  lemma {:induction false} NarrowScanIsSubseq(sub: MatchTable, sup: MatchTable, i: nat)
    requires WellFormed(sub) && WellFormed(sup) && Narrows(sub, sup) && i <= |sup|
    ensures IsSubseq(ScanTable(sub, i), ScanTable(sup, i))
    decreases |sup| - i
  {
    if i < |sup| {
      if sub[i].Some? {
        var h := sub[i].value;
        NarrowScanIsSubseq(sub, sup, h.end);
        var a := ScanTable(sub, h.end);
        var b := ScanTable(sup, h.end);
        assert ([h] + a)[1..] == a && ([h] + b)[1..] == b;
      } else if sup[i].Some? {
        var e := sup[i].value.end;
        SkipNoMatch(sub, i + 1, e);
        NarrowScanIsSubseq(sub, sup, e);
        var b := ScanTable(sup, e);
        assert ([sup[i].value] + b)[1..] == b;
      } else {
        NarrowScanIsSubseq(sub, sup, i + 1);
      }
    }
  }
}

=== FILE: scanner.dfy ===
/**
  The module scanner: a read-only pipeline from a snapshot of a module
  directory to the report a README is generated from. The snapshot is the
  directory listing, the text of each file and the parsed `.info.yml`
  manifests; `glob`, `file_get_contents` and the YAML parser read from it.
 */
module CodebaseScanner {
  import opened Wrappers
  import opened Strings
  import opened Subsequences
  import opened LeftmostScan
  import opened Regex
  import opened Glob
  import opened PhpArrays

  /** The keys of a parsed `.info.yml` the scanner reads, `None` when a key is absent. */
  datatype Info = Info(name: Option<string>, description: Option<string>, dependencies: Option<seq<string>>)

  /**
    A filesystem snapshot: every path in directory-listing order, the text of
    the readable files, and the parsed manifests.
   */
  datatype FileSystem = FileSystem(paths: seq<string>, contents: map<string, string>, manifests: map<string, Info>)

  /** `file_get_contents`: an unreadable file reads as the empty text. */
  function ReadText(fs: FileSystem, f: string): string {
    if f in fs.contents then fs.contents[f] else ""
  }

  /** `Yaml::parseFile`: a manifest that yields no mapping has no keys. */
  function ReadManifest(fs: FileSystem, f: string): Info {
    if f in fs.manifests then fs.manifests[f] else Info(None, None, None)
  }

  const NoManifestDescription: string := "No description found."
  const MissingDescription: string := "No description available."

  /** `*.info.yml` directly inside a directory. */
  const ManifestPattern: RelPattern := [Star(".info.yml")]

  const TopLevelPatterns: seq<RelPattern> := [
    [Star(".info.yml")],
    [Star(".module")],
    [Star(".install")],
    [Star(".routing.yml")],
    [Star(".permissions.yml")],
    [Star(".links.menu.yml")],
    [Star(".links.task.yml")],
    [Star(".schema.yml")]
  ]

  const SubDirPatterns: seq<RelPattern> := [
    [Lit("src"), Lit("Controller"), Star(".php")],
    [Lit("src"), Lit("Form"), Star(".php")],
    [Lit("src"), Lit("Plugin"), Star(".php")],
    [Lit("src"), Lit("Entity"), Star(".php")],
    [Lit("src"), Lit("Utility"), Star(".php")],
    [Lit("config"), Lit("install"), Star(".yml")]
  ]

  /** The fourteen patterns of the scanned files, in the order they are globbed. */
  const ScanPatterns: seq<RelPattern> := TopLevelPatterns + SubDirPatterns

  /** A manifest one directory below `modules`. */
  const SubmodulePattern: RelPattern := [Lit("modules"), Star(""), Star(".info.yml")]

  const ControllerDir: string := "src/Controller/"
  const FormDir: string := "src/Form/"

  // ---------------------------------------------------------------------
  // Module metadata
  // ---------------------------------------------------------------------

  datatype ModuleInfo = ModuleInfo(name: string, description: string, dependencies: seq<string>)

  /** `extractModuleInfo`: the first top-level manifest, each key with its own default. */
  function ExtractModuleInfo(fs: FileSystem, mp: string): ModuleInfo {
    var found := GlobFiles(fs.paths, mp, ManifestPattern);
    if |found| > 0 && found[0] in fs.paths then
      var info := ReadManifest(fs, found[0]);
      ModuleInfo(
        info.name.GetOr(Basename(mp)),
        info.description.GetOr(MissingDescription),
        info.dependencies.GetOr([]))
    else
      ModuleInfo(Basename(mp), NoManifestDescription, [])
  }

  /** `paths[j]` is the first entry of the listing that is a top-level manifest. */
  predicate IsFirstManifest(fs: FileSystem, mp: string, j: nat) {
    && j < |fs.paths|
    && GlobMatch(mp, ManifestPattern, fs.paths[j])
    && forall i :: 0 <= i < j ==> !GlobMatch(mp, ManifestPattern, fs.paths[i])
  }

  /** With no top-level manifest, the name is the directory's base name and the rest are defaults. */
  lemma ModuleInfoWithoutManifest(fs: FileSystem, mp: string)
    requires forall i :: 0 <= i < |fs.paths| ==> !GlobMatch(mp, ManifestPattern, fs.paths[i])
    ensures ExtractModuleInfo(fs, mp) == ModuleInfo(Basename(mp), NoManifestDescription, [])
  {
    if |GlobFiles(fs.paths, mp, ManifestPattern)| > 0 {
      var f := GlobFiles(fs.paths, mp, ManifestPattern)[0];
      assert f in fs.paths;
    }
  }

  /**
    With a manifest, only the first one in the listing is read, and each key
    missing from it falls back on its own default.
   */
  lemma ModuleInfoWithManifest(fs: FileSystem, mp: string, j: nat)
    requires IsFirstManifest(fs, mp, j)
    ensures var info := ReadManifest(fs, fs.paths[j]);
      var r := ExtractModuleInfo(fs, mp);
      && r.name == (if info.name.Some? then info.name.value else Basename(mp))
      && r.description == (if info.description.Some? then info.description.value else MissingDescription)
      && r.dependencies == (if info.dependencies.Some? then info.dependencies.value else [])
  {
    GlobFirst(fs.paths, mp, ManifestPattern, j);
  }

  // ---------------------------------------------------------------------
  // The scanned files
  // ---------------------------------------------------------------------

  /** `listRelevantFiles`: the top-level patterns, then the subdirectory patterns, each in listing order. */
  function ListRelevantFiles(fs: FileSystem, mp: string): seq<string> {
    GlobAll(fs.paths, mp, TopLevelPatterns) + GlobAll(fs.paths, mp, SubDirPatterns)
  }

  /**
    The scanned files are exactly the listed paths matching one of the
    fourteen patterns, and all lie under the module directory.
   */
  lemma RelevantFiles(fs: FileSystem, mp: string)
    ensures forall f :: f in ListRelevantFiles(fs, mp) <==>
      f in fs.paths && (exists k :: 0 <= k < |ScanPatterns| && GlobMatch(mp, ScanPatterns[k], f))
    ensures forall f :: f in ListRelevantFiles(fs, mp) ==> StartsWith(f, mp + "/")
  {
    GlobAllConcat(fs.paths, mp, TopLevelPatterns, SubDirPatterns);
  }

  /** The files directly inside the module directory come before those in its subdirectories. */
  lemma RelevantFilesOrder(fs: FileSystem, mp: string)
    ensures var files := ListRelevantFiles(fs, mp);
      forall i, j :: 0 <= i < j < |files| && DirectlyIn(mp, files[j]) ==> DirectlyIn(mp, files[i])
  {
    assert forall k :: 0 <= k < |TopLevelPatterns| ==> |TopLevelPatterns[k]| == 1;
    assert forall k :: 0 <= k < |SubDirPatterns| ==> |SubDirPatterns[k]| >= 2;
    GlobAllOrder(fs.paths, mp, TopLevelPatterns, SubDirPatterns);
    var files := ListRelevantFiles(fs, mp);
    assert files == GlobAll(fs.paths, mp, TopLevelPatterns) + GlobAll(fs.paths, mp, SubDirPatterns);
    forall i, j | 0 <= i < j < |files| && DirectlyIn(mp, files[j])
      ensures DirectlyIn(mp, files[i])
    {
    }
  }

  lemma ScanPatternsApart()
    ensures forall i, j :: 0 <= i < j < |ScanPatterns| ==> Apart(ScanPatterns[i], ScanPatterns[j])
  {
  }

  /** No two of the fourteen patterns match the same path, so no file is scanned twice. */
  lemma RelevantFilesDistinct(fs: FileSystem, mp: string)
    requires Distinct(fs.paths)
    ensures Distinct(ListRelevantFiles(fs, mp))
  {
    ScanPatternsApart();
    GlobAllAppend(fs.paths, mp, TopLevelPatterns, SubDirPatterns);
    GlobAllDistinct(fs.paths, mp, ScanPatterns);
  }

  /** The path of `f` relative to the module: every occurrence of `mp + "/"` removed (`str_replace`). */
  function RelativePath(mp: string, f: string): string {
    RemoveAll(f, mp + "/")
  }

  /** When the module path does not recur after its own prefix, the relative path is what follows it. */
  lemma RelativePathOf(mp: string, f: string)
    requires StartsWith(f, mp + "/") && !Contains(f[|mp| + 1..], mp + "/")
    ensures RelativePath(mp, f) == f[|mp| + 1..]
  {
    assert f == (mp + "/") + f[|mp| + 1..];
    RemoveAllLeading(mp + "/", f[|mp| + 1..]);
  }

  /** The relative path of a top-level file is its own name. */
  lemma TopLevelRelativePath(mp: string, f: string)
    requires DirectlyIn(mp, f)
    ensures RelativePath(mp, f) == f[|mp| + 1..]
  {
    SlashNeedleAbsent(f[|mp| + 1..], mp + "/");
    RelativePathOf(mp, f);
  }

  /**
    A file found by a pattern of no more segments than the module path has
    `/` characters, plus one, has as relative path what follows the module
    path: that remainder holds fewer `/` than `mp/`, so `mp/` cannot recur.
   */
  lemma ShallowRelativePath(mp: string, segs: RelPattern, f: string)
    requires GlobMatch(mp, segs, f) && |segs| <= CountChar(mp, '/') + 1
    ensures RelativePath(mp, f) == f[|mp| + 1..]
  {
    var rest := f[|mp| + 1..];
    SegmentSlashes(segs, rest);
    assert multiset(mp + "/") == multiset(mp) + multiset("/");
    assert !Contains(rest, mp + "/") by {
      if Contains(rest, mp + "/") {
        ContainsCount(rest, mp + "/", '/');
      }
    }
    RelativePathOf(mp, f);
  }

  /** Every subdirectory pattern has three segments. */
  lemma SubDirPatternsThreeDeep()
    ensures forall k :: 0 <= k < |SubDirPatterns| ==> |SubDirPatterns[k]| == 3
  {
  }

  /**
    Under a module path holding at least two `/`, the relative path of a file
    found by a subdirectory pattern is what follows the module path.
   */
  lemma SubDirRelativePath(mp: string, f: string, k: nat)
    requires CountChar(mp, '/') >= 2
    requires k < |SubDirPatterns| && GlobMatch(mp, SubDirPatterns[k], f)
    ensures RelativePath(mp, f) == f[|mp| + 1..]
  {
    SubDirPatternsThreeDeep();
    ShallowRelativePath(mp, SubDirPatterns[k], f);
  }

  // ---------------------------------------------------------------------
  // Functions, classes and hooks
  // ---------------------------------------------------------------------

  /** The string `"$relativePath::$name"`. */
  function Entry(rel: string, name: string): string {
    rel + "::" + name
  }

  /** The captured names of `hs`, each prefixed with `rel::`. */
  function Qualify(rel: string, hs: seq<Hit>): (r: seq<string>)
    ensures |r| == |hs|
    ensures forall k :: 0 <= k < |hs| ==> r[k] == Entry(rel, hs[k].name)
  {
    if |hs| == 0 then [] else [Entry(rel, hs[0].name)] + Qualify(rel, hs[1..])
  }

  /** Qualifying keeps subsequences. */
  lemma {:induction false} QualifySubseq(rel: string, a: seq<Hit>, b: seq<Hit>)
    requires IsSubseq(a, b)
    ensures IsSubseq(Qualify(rel, a), Qualify(rel, b))
    decreases |b|
  {
    if |b| > 0 {
      assert Qualify(rel, b)[1..] == Qualify(rel, b[1..]);
      if |a| > 0 && a[0] == b[0] && IsSubseq(a[1..], b[1..]) {
        QualifySubseq(rel, a[1..], b[1..]);
        assert Qualify(rel, a)[1..] == Qualify(rel, a[1..]);
      } else {
        QualifySubseq(rel, a, b[1..]);
      }
    }
  }

  /** The entries one file contributes for pattern `p`: its matches, left to right. */
  function FileEntries(fs: FileSystem, mp: string, p: Pattern, f: string): seq<string> {
    Qualify(RelativePath(mp, f), Matches(p, ReadText(fs, f)))
  }

  /** The entries of every file, in file order (the `foreach` over `$files`). */
  function Collect(fs: FileSystem, mp: string, p: Pattern, files: seq<string>): (r: seq<string>)
    ensures forall e :: e in r <==> exists i :: 0 <= i < |files| && e in FileEntries(fs, mp, p, files[i])
  {
    if |files| == 0 then []
    else
      assert forall i :: 0 < i < |files| ==> files[i] == files[1..][i - 1];
      FileEntries(fs, mp, p, files[0]) + Collect(fs, mp, p, files[1..])
  }

  /** Collecting over two runs of files gives the first run's entries, then the second's. */
  lemma {:induction false} CollectAppend(fs: FileSystem, mp: string, p: Pattern, a: seq<string>, b: seq<string>)
    ensures Collect(fs, mp, p, a + b) == Collect(fs, mp, p, a) + Collect(fs, mp, p, b)
    decreases |a|
  {
    if |a| == 0 {
      assert a + b == b;
    } else {
      assert (a + b)[1..] == a[1..] + b;
      CollectAppend(fs, mp, p, a[1..], b);
    }
  }

  /** One file gives one entry per match, in match order. */
  lemma CollectSingle(fs: FileSystem, mp: string, p: Pattern, f: string)
    ensures var r := Collect(fs, mp, p, [f]);
      var hs := Matches(p, ReadText(fs, f));
      |r| == |hs| && forall k :: 0 <= k < |hs| ==> r[k] == Entry(RelativePath(mp, f), hs[k].name)
  {
    assert Collect(fs, mp, p, [f]) == FileEntries(fs, mp, p, f) + Collect(fs, mp, p, []);
  }

  /** An entry of a file is `rel::name` for one of the file's matches. */
  lemma FileEntryShape(fs: FileSystem, mp: string, p: Pattern, f: string, e: string)
    ensures e in FileEntries(fs, mp, p, f) <==>
      exists h :: h in Matches(p, ReadText(fs, f)) && e == Entry(RelativePath(mp, f), h.name)
  {
    var hs := Matches(p, ReadText(fs, f));
    var es := FileEntries(fs, mp, p, f);
    if e in es {
      var k :| 0 <= k < |es| && es[k] == e;
      assert hs[k] in hs;
    }
    if exists h :: h in hs && e == Entry(RelativePath(mp, f), h.name) {
      var h :| h in hs && e == Entry(RelativePath(mp, f), h.name);
      var k :| 0 <= k < |hs| && hs[k] == h;
      assert es[k] == e;
    }
  }

  datatype CodeSymbols = CodeSymbols(classes: seq<string>, functions: seq<string>)

  /** `parseCodeFiles`: class and function entries of every scanned file. */
  function ParseCodeFiles(fs: FileSystem, mp: string, files: seq<string>): (r: CodeSymbols)
    ensures forall e :: e in r.classes <==>
      exists i :: 0 <= i < |files| && e in FileEntries(fs, mp, ClassDecl, files[i])
    ensures forall e :: e in r.functions <==>
      exists i :: 0 <= i < |files| && e in FileEntries(fs, mp, FunctionDecl, files[i])
  {
    CodeSymbols(Collect(fs, mp, ClassDecl, files), Collect(fs, mp, FunctionDecl, files))
  }

  /**
    Parsing two runs of files gives the first run's entries, then the
    second's, for classes and functions alike; together with `CollectSingle`
    this fixes the order (file order, then match order) and the count (one
    entry per match, so a name declared twice appears twice).
   */
  lemma ParseCodeFilesAppend(fs: FileSystem, mp: string, a: seq<string>, b: seq<string>)
    ensures ParseCodeFiles(fs, mp, a + b).classes == ParseCodeFiles(fs, mp, a).classes + ParseCodeFiles(fs, mp, b).classes
    ensures ParseCodeFiles(fs, mp, a + b).functions == ParseCodeFiles(fs, mp, a).functions + ParseCodeFiles(fs, mp, b).functions
  {
    CollectAppend(fs, mp, ClassDecl, a, b);
    CollectAppend(fs, mp, FunctionDecl, a, b);
  }

  /** Across the files, the hook entries are an in-order subsequence of the function entries. */
  lemma {:induction false} HookEntriesAreFunctionEntries(fs: FileSystem, mp: string, files: seq<string>)
    ensures IsSubseq(Collect(fs, mp, HookDecl, files), Collect(fs, mp, FunctionDecl, files))
  {
    if |files| == 0 {
      assert IsSubseq<string>([], []);
    } else {
      var f := files[0];
      HooksAreFunctions(ReadText(fs, f));
      QualifySubseq(RelativePath(mp, f), Matches(HookDecl, ReadText(fs, f)), Matches(FunctionDecl, ReadText(fs, f)));
      HookEntriesAreFunctionEntries(fs, mp, files[1..]);
      SubseqConcat(
        FileEntries(fs, mp, HookDecl, f), FileEntries(fs, mp, FunctionDecl, f),
        Collect(fs, mp, HookDecl, files[1..]), Collect(fs, mp, FunctionDecl, files[1..]));
    }
  }

  // ---------------------------------------------------------------------
  // Controllers and forms
  // ---------------------------------------------------------------------

  /**
    The entry a file contributes to `controllers` (marker `src/Controller/`)
    or `forms` (marker `src/Form/`): the first class match, if the relative
    path contains the marker. It is the file's first class entry.
   */
  function ConventionEntry(fs: FileSystem, mp: string, marker: string, f: string): (r: seq<string>)
    ensures var classes := FileEntries(fs, mp, ClassDecl, f);
      r == if Contains(RelativePath(mp, f), marker) && |classes| > 0 then [classes[0]] else []
  {
    var rel := RelativePath(mp, f);
    FirstMatchIsFirstOfMatches(ClassDecl, ReadText(fs, f));
    if Contains(rel, marker) then
      match FirstMatch(ClassDecl, ReadText(fs, f))
      case Some(h) => [Entry(rel, h.name)]
      case None => []
    else []
  }

  /** The convention entries of every file, in file order. */
  function Conventional(fs: FileSystem, mp: string, marker: string, files: seq<string>): (r: seq<string>)
    ensures |r| <= |files|
    ensures forall e :: e in r <==>
      exists i :: 0 <= i < |files| && e in ConventionEntry(fs, mp, marker, files[i])
  {
    if |files| == 0 then []
    else
      assert forall i :: 0 < i < |files| ==> files[i] == files[1..][i - 1];
      ConventionEntry(fs, mp, marker, files[0]) + Conventional(fs, mp, marker, files[1..])
  }

  /** The convention entries are an in-order subsequence of the class entries. */
  lemma {:induction false} ConventionalAreClasses(fs: FileSystem, mp: string, marker: string, files: seq<string>)
    ensures IsSubseq(Conventional(fs, mp, marker, files), Collect(fs, mp, ClassDecl, files))
  {
    if |files| == 0 {
      assert IsSubseq<string>([], []);
    } else {
      var f := files[0];
      var classes := FileEntries(fs, mp, ClassDecl, f);
      if ConventionEntry(fs, mp, marker, f) == [] {
        SubseqEmpty(classes);
      } else {
        SubseqHead(classes);
      }
      ConventionalAreClasses(fs, mp, marker, files[1..]);
      SubseqConcat(
        ConventionEntry(fs, mp, marker, f), classes,
        Conventional(fs, mp, marker, files[1..]), Collect(fs, mp, ClassDecl, files[1..]));
    }
  }

  /**
    Under a module path holding at least two `/`, a file found by the pattern
    `a/b/…` passes the marker test for `a/b/`: it yields its first class
    entry, if any.
   */
  lemma MarkerDirEntry(fs: FileSystem, mp: string, a: string, b: string, g: Segment, f: string)
    requires CountChar(mp, '/') >= 2 && GlobMatch(mp, [Lit(a), Lit(b), g], f)
    ensures var classes := FileEntries(fs, mp, ClassDecl, f);
      ConventionEntry(fs, mp, a + "/" + b + "/", f) == if |classes| > 0 then [classes[0]] else []
  {
    ShallowRelativePath(mp, [Lit(a), Lit(b), g], f);
    var rest := f[|mp| + 1..];
    TwoLitPrefix(a, b, g, rest);
    assert OccursAt(rest, a + "/" + b + "/", 0);
  }

  /** The first two subdirectory patterns spell out the controller and form markers. */
  lemma ConventionPatterns()
    ensures SubDirPatterns[0] == [Lit("src"), Lit("Controller"), Star(".php")]
    ensures SubDirPatterns[1] == [Lit("src"), Lit("Form"), Star(".php")]
    ensures ControllerDir == "src" + "/" + "Controller" + "/"
    ensures FormDir == "src" + "/" + "Form" + "/"
  {
  }

  /**
    Under a module path holding at least two `/`, a PHP file found in
    `src/Controller` passes the controller test, and one found in `src/Form`
    the form test: it yields its first class entry, if any.
   */
  lemma ConventionDirEntry(fs: FileSystem, mp: string, f: string, k: nat, marker: string)
    requires CountChar(mp, '/') >= 2
    requires (k == 0 && marker == ControllerDir) || (k == 1 && marker == FormDir)
    requires GlobMatch(mp, SubDirPatterns[k], f)
    ensures var classes := FileEntries(fs, mp, ClassDecl, f);
      ConventionEntry(fs, mp, marker, f) == if |classes| > 0 then [classes[0]] else []
  {
    ConventionPatterns();
    if k == 0 {
      MarkerDirEntry(fs, mp, "src", "Controller", Star(".php"), f);
    } else {
      MarkerDirEntry(fs, mp, "src", "Form", Star(".php"), f);
    }
  }

  /** Convention entries over two runs of files: the first run's, then the second's. */
  lemma {:induction false} ConventionalAppend(fs: FileSystem, mp: string, marker: string, a: seq<string>, b: seq<string>)
    ensures Conventional(fs, mp, marker, a + b) == Conventional(fs, mp, marker, a) + Conventional(fs, mp, marker, b)
    decreases |a|
  {
    if |a| == 0 {
      assert a + b == b;
    } else {
      assert (a + b)[1..] == a[1..] + b;
      ConventionalAppend(fs, mp, marker, a[1..], b);
    }
  }

  /** One file yields at most one convention entry: its first class entry, when its relative path holds the marker. */
  lemma ConventionalSingle(fs: FileSystem, mp: string, marker: string, f: string)
    ensures var classes := FileEntries(fs, mp, ClassDecl, f);
      Conventional(fs, mp, marker, [f]) ==
        if Contains(RelativePath(mp, f), marker) && |classes| > 0 then [classes[0]] else []
  {
    assert Conventional(fs, mp, marker, [f]) == ConventionEntry(fs, mp, marker, f) + Conventional(fs, mp, marker, []);
  }

  datatype UsefulData = UsefulData(hooks: seq<string>, controllers: seq<string>, forms: seq<string>)

  /**
    `extractUsefulData`: hooks, controllers and forms. Every hook is a function
    entry and every controller or form a class entry, in order; a file yields
    at most one controller and at most one form.
   */
  function ExtractUsefulData(fs: FileSystem, mp: string, files: seq<string>): (r: UsefulData)
    ensures var code := ParseCodeFiles(fs, mp, files);
      && IsSubseq(r.hooks, code.functions)
      && IsSubseq(r.controllers, code.classes)
      && IsSubseq(r.forms, code.classes)
    ensures |r.controllers| <= |files| && |r.forms| <= |files|
  {
    HookEntriesAreFunctionEntries(fs, mp, files);
    ConventionalAreClasses(fs, mp, ControllerDir, files);
    ConventionalAreClasses(fs, mp, FormDir, files);
    UsefulData(
      Collect(fs, mp, HookDecl, files),
      Conventional(fs, mp, ControllerDir, files),
      Conventional(fs, mp, FormDir, files))
  }

  /**
    The useful data of two runs of files is that of the first run, then that
    of the second, list by list; with `CollectSingle` and `ConventionalSingle`
    this fixes each list entry by entry.
   */
  lemma ExtractUsefulDataAppend(fs: FileSystem, mp: string, a: seq<string>, b: seq<string>)
    ensures var r, ra, rb := ExtractUsefulData(fs, mp, a + b), ExtractUsefulData(fs, mp, a), ExtractUsefulData(fs, mp, b);
      && r.hooks == ra.hooks + rb.hooks
      && r.controllers == ra.controllers + rb.controllers
      && r.forms == ra.forms + rb.forms
  {
    CollectAppend(fs, mp, HookDecl, a, b);
    ConventionalAppend(fs, mp, ControllerDir, a, b);
    ConventionalAppend(fs, mp, FormDir, a, b);
  }

  // ---------------------------------------------------------------------
  // Submodules
  // ---------------------------------------------------------------------

  datatype Submodule = Submodule(name: string, description: string)

  /** The entry for one submodule manifest. */
  function SubmoduleOf(fs: FileSystem, f: string): Submodule {
    Submodule(BasenameWithSuffix(f, ".info.yml"), ReadManifest(fs, f).description.GetOr(MissingDescription))
  }

  /** `listSubmodules`: one entry per manifest one level below `modules`, in listing order. */
  function ListSubmodules(fs: FileSystem, mp: string): (r: seq<Submodule>)
    ensures |r| == |GlobFiles(fs.paths, mp, SubmodulePattern)|
  {
    var found := GlobFiles(fs.paths, mp, SubmodulePattern);
    seq(|found|, k requires 0 <= k < |found| => SubmoduleOf(fs, found[k]))
  }

  /**
    The `k`-th submodule comes from the `k`-th manifest `glob` finds: its name
    is the manifest's file name without `.info.yml` (never empty), and its
    description that of the manifest or the default.
   */
  lemma SubmoduleEntry(fs: FileSystem, mp: string, k: nat)
    requires k < |ListSubmodules(fs, mp)|
    ensures var f := GlobFiles(fs.paths, mp, SubmodulePattern)[k];
      var sm := ListSubmodules(fs, mp)[k];
      var info := ReadManifest(fs, f);
      && f in fs.paths && GlobMatch(mp, SubmodulePattern, f)
      && |sm.name| > 0 && NoSlash(sm.name)
      && EndsWith(f, "/" + sm.name + ".info.yml")
      && sm.description == (if info.description.Some? then info.description.value else MissingDescription)
  {
    var found := GlobFiles(fs.paths, mp, SubmodulePattern);
    assert found[k] in found;
    GlobBasenameStem(mp, SubmodulePattern, found[k], ".info.yml");
  }

  // ---------------------------------------------------------------------
  // The report
  // ---------------------------------------------------------------------

  /** A value of the report array. */
  datatype Value = Text(text: string) | List(items: seq<string>) | Submodules(entries: seq<Submodule>)

  /** The nine keys of the report, in order. */
  const ReportKeys: seq<string> :=
    ["name", "description", "dependencies", "classes", "functions", "hooks", "controllers", "forms", "submodules"]

  /** The `array_merge` of the module information, the code symbols, the useful data and the submodules. */
  function Assemble(info: ModuleInfo, code: CodeSymbols, useful: UsefulData, subs: seq<Submodule>): PhpArray<Value> {
    Merge(Merge(Merge(
      [("name", Text(info.name)), ("description", Text(info.description)), ("dependencies", List(info.dependencies))],
      [("classes", List(code.classes)), ("functions", List(code.functions))]),
      [("hooks", List(useful.hooks)), ("controllers", List(useful.controllers)), ("forms", List(useful.forms))]),
      [("submodules", Submodules(subs))])
  }

  /** `scan`: the constructor's trimmed path, then the four parts merged. */
  function Scan(fs: FileSystem, raw: string): PhpArray<Value> {
    var mp := RTrimSlash(raw);
    var files := ListRelevantFiles(fs, mp);
    Assemble(ExtractModuleInfo(fs, mp), ParseCodeFiles(fs, mp, files), ExtractUsefulData(fs, mp, files), ListSubmodules(fs, mp))
  }

  /** The constructor's `rtrim` makes any run of trailing slashes on the module path irrelevant. */
  lemma ScanTrailingSlashes(fs: FileSystem, raw: string, slashes: string)
    requires forall i :: 0 <= i < |slashes| ==> slashes[i] == '/'
    ensures Scan(fs, raw + slashes) == Scan(fs, raw)
  {
    RTrimSlashes(raw, slashes);
  }

  /** The keys of `a` are the report keys from position `n` on, in order. */
  predicate KeysFrom(a: PhpArray<Value>, n: nat) {
    n + |a| <= |ReportKeys| && forall i :: 0 <= i < |a| ==> a[i].0 == ReportKeys[n + i]
  }

  /** Arrays holding consecutive runs of the report keys merge by concatenation. */
  lemma MergeParts(a: PhpArray<Value>, b: PhpArray<Value>)
    requires KeysFrom(a, 0) && KeysFrom(b, |a|)
    ensures Merge(a, b) == a + b && KeysFrom(a + b, 0)
  {
    assert Distinct(ReportKeys);
    MergeRuns(a, b, ReportKeys);
  }

  /**
    The merged parts share no key, so `array_merge` overwrites nothing: the
    report holds each part's entries under the nine keys, in order.
   */
  lemma AssembleLayout(info: ModuleInfo, code: CodeSymbols, useful: UsefulData, subs: seq<Submodule>)
    ensures Assemble(info, code, useful, subs) == [
      ("name", Text(info.name)), ("description", Text(info.description)), ("dependencies", List(info.dependencies)),
      ("classes", List(code.classes)), ("functions", List(code.functions)),
      ("hooks", List(useful.hooks)), ("controllers", List(useful.controllers)), ("forms", List(useful.forms)),
      ("submodules", Submodules(subs))]
  {
    var a: PhpArray<Value> := [("name", Text(info.name)), ("description", Text(info.description)), ("dependencies", List(info.dependencies))];
    var b: PhpArray<Value> := [("classes", List(code.classes)), ("functions", List(code.functions))];
    var c: PhpArray<Value> := [("hooks", List(useful.hooks)), ("controllers", List(useful.controllers)), ("forms", List(useful.forms))];
    var d: PhpArray<Value> := [("submodules", Submodules(subs))];
    MergeParts(a, b);
    MergeParts(a + b, c);
    MergeParts(a + b + c, d);
  }

  lemma AssembleKeys(info: ModuleInfo, code: CodeSymbols, useful: UsefulData, subs: seq<Submodule>)
    ensures Keys(Assemble(info, code, useful, subs)) == ReportKeys
    ensures DistinctKeys(Assemble(info, code, useful, subs))
  {
    AssembleLayout(info, code, useful, subs);
    var r := Assemble(info, code, useful, subs);
    assert KeysFrom(r, 0);
    assert Distinct(ReportKeys);
  }

  /** The report has exactly the nine keys, each once, in order. */
  lemma ScanKeys(fs: FileSystem, raw: string)
    ensures Keys(Scan(fs, raw)) == ReportKeys && DistinctKeys(Scan(fs, raw))
  {
    var mp := RTrimSlash(raw);
    var files := ListRelevantFiles(fs, mp);
    var info := ExtractModuleInfo(fs, mp);
    var code := ParseCodeFiles(fs, mp, files);
    var useful := ExtractUsefulData(fs, mp, files);
    var subs := ListSubmodules(fs, mp);
    AssembleLayout(info, code, useful, subs);
    AssembleKeys(info, code, useful, subs);
  }

}

=== FILE: scenarios.dfy ===
/**
  Worked inputs for the three declaration patterns, each proved against the
  leftmost, non-overlapping scan: the patterns carry no word boundary, so a
  keyword may be matched inside a longer word or serve as a name itself, and
  a bare `hook_` prefix is a function but not a hook. Then two paths for the
  module picker's prefix tests, and a one-component module path that recurs
  inside a file's path.
 */
module Scenarios {
  import opened Wrappers
  import opened Strings
  import opened LeftmostScan
  import opened Regex
  import opened ModuleList
  import CodebaseScanner

  /** A text whose only anchored match is `h`, with nothing after it, has `[h]` as its matches. */
  lemma OnlyMatch(p: Pattern, s: string, h: Hit)
    requires h.start < h.end <= |s| && MatchAt(p, s, h.start) == Some(h)
    requires forall m :: 0 <= m < h.start ==> MatchAt(p, s, m).None?
    requires forall m :: h.end <= m < |s| ==> MatchAt(p, s, m).None?
    ensures Matches(p, s) == [h]
  {
    var t := Table(p, s);
    SkipNoMatch(t, 0, h.start);
    SkipNoMatch(t, h.end, |s|);
  }

  /** A text with no anchored match has no matches. */
  lemma NoMatch(p: Pattern, s: string)
    requires forall m :: 0 <= m < |s| ==> MatchAt(p, s, m).None?
    ensures Matches(p, s) == []
  {
    SkipNoMatch(Table(p, s), 0, |s|);
  }

  /** A needle whose first character differs from `s[m]` does not occur at `m`. */
  lemma FirstCharMismatch(s: string, needle: string, m: nat)
    requires m < |s| && |needle| > 0 && s[m] != needle[0]
    ensures !OccursAt(s, needle, m)
  {
    if m + |needle| <= |s| {
      assert s[m..m + |needle|][0] == s[m];
    }
  }

  /** `class class Foo`: the second `class` is taken as the name, and `Foo` is never reached. */
  lemma ClassClass()
    ensures Matches(ClassDecl, "class class Foo") == [Hit(0, "class", 11)]
  {
    var s := "class class Foo";
    assert ClassShape(s, 0, 6, 11) by {
      assert s[0..5] == "class";
    }
    assert s[6..11] == "class";
    ClassMatchIsRegexMatch(s, 0, Hit(0, "class", 11));
    OnlyMatch(ClassDecl, s, Hit(0, "class", 11));
  }

  /** `subclass Foo`: the keyword is found inside `subclass`, three characters in. */
  lemma Subclass()
    ensures Matches(ClassDecl, "subclass Foo") == [Hit(3, "Foo", 12)]
  {
    var s := "subclass Foo";
    assert ClassShape(s, 3, 9, 12) by {
      assert s[3..8] == "class";
    }
    assert s[9..12] == "Foo";
    ClassMatchIsRegexMatch(s, 3, Hit(3, "Foo", 12));
    forall m | 0 <= m < 3
      ensures MatchAt(ClassDecl, s, m).None?
    {
      FirstCharMismatch(s, "class", m);
    }
    OnlyMatch(ClassDecl, s, Hit(3, "Foo", 12));
  }

  /** `function hook_(`: a function named `hook_`, but no hook, since a hook name needs a character after `hook_`. */
  lemma EmptyHookSuffix()
    ensures Matches(FunctionDecl, "function hook_(") == [Hit(0, "hook_", 15)]
    ensures Matches(HookDecl, "function hook_(") == []
  {
    var s := "function hook_(";
    assert FunctionShape(s, 0, 9, 14, 14) by {
      assert s[0..8] == "function";
    }
    assert s[9..14] == "hook_";
    FunctionShapeMatches(s, 0, 9, 14, 14);
    OnlyMatch(FunctionDecl, s, Hit(0, "hook_", 15));
    assert MatchHook(s, 0).None? by {
      SpanExact(Space, s, 8, 9);
      SpanExact(HookTail, s, 14, 14);
    }
    forall m | 1 <= m < |s|
      ensures MatchAt(HookDecl, s, m).None?
    {
      NoHookWithoutF(s, m);
    }
    NoMatch(HookDecl, s);
  }

  /** A path that starts with none of the three prefixes is kept. */
  lemma KeptWithoutPrefix(path: string)
    requires !StartsWith(path, "core/modules")
    requires !StartsWith(path, "modules/custom") && !StartsWith(path, "modules/contrib")
    ensures Keep(path)
  {
  }

  /** Any path spelled `modules/custom…/x/y` is dropped: it starts with the prefix and holds three `/`. */
  lemma DeepUnderCustom(tail: string, x: string, y: string)
    ensures !Keep("modules/custom" + tail + "/" + x + "/" + y)
  {
    var pre := "modules/custom";
    var p := pre + tail + "/" + x + "/" + y;
    assert p[..|pre|] == pre;
    assert pre[7] == '/';
    assert multiset(p) == multiset(pre) + multiset(tail) + multiset("/") + multiset(x) + multiset("/") + multiset(y);
  }

  /** The core test is the prefix `core/modules`: a core profile's module is kept. */
  lemma CoreProfileKept()
    ensures Keep("core/profiles/demo/modules/dc")
  {
    var core := "core/profiles/demo/modules/dc";
    assert core[..12][5] == 'p' && "core/modules"[5] == 'm';
    assert core[..14][0] == 'c' && "modules/custom"[0] == 'm' && "modules/contrib"[0] == 'm';
    KeptWithoutPrefix(core);
  }

  /** The custom test has no trailing `/`: two levels below `modules/customer`, a module is dropped. */
  lemma CustomerDropped()
    ensures !Keep("modules/customer/a/b")
  {
    assert "modules/custom" + "er" + "/" + "a" + "/" + "b" == "modules/customer/a/b";
    DeepUnderCustom("er", "a", "b");
  }

  /** `str_replace` drops a leading needle and carries on after it. */
  lemma RemoveLeadingNeedle(needle: string, t: string)
    requires |needle| > 0
    ensures RemoveAll(needle + t, needle) == RemoveAll(t, needle)
  {
    assert StartsWith(needle + t, needle);
    assert (needle + t)[|needle|..] == t;
  }

  /** `str_replace` keeps a leading character where the needle does not start. */
  lemma KeepLeadingChar(x: char, t: string, needle: string)
    requires |needle| > 0 && !StartsWith([x] + t, needle)
    ensures RemoveAll([x] + t, needle) == [x] + RemoveAll(t, needle)
  {
    assert ([x] + t)[1..] == t;
  }

  /** A needle whose first character never occurs is absent. */
  lemma FirstCharAbsent(t: string, needle: string)
    requires |needle| > 0 && needle[0] !in t
    ensures !Contains(t, needle)
  {
  }

  /**
    Under a one-character module path `m`, a later `m/` inside the file's
    path is deleted too.
   */
  lemma SingleComponentRecurs(m: char, a: char, b: char, tail: string)
    requires m != a && m != b && m !in tail
    ensures CodebaseScanner.RelativePath([m], [m, '/', a, b, m, '/'] + tail) == [a, b] + tail
  {
    var n := [m, '/'];
    assert [m] + "/" == n;
    assert [m, '/', a, b, m, '/'] + tail == n + ([a] + ([b] + (n + tail)));
    RemoveLeadingNeedle(n, [a] + ([b] + (n + tail)));
    KeepLeadingChar(a, [b] + (n + tail), n);
    KeepLeadingChar(b, n + tail, n);
    RemoveLeadingNeedle(n, tail);
    FirstCharAbsent(tail, n);
    RemoveAllNoOccurrence(tail, n);
  }

  /**
    A module path with a single component can recur inside the relative
    path: under `c`, `str_replace` also deletes the `c/` of `src/`, so the
    file no longer holds the controller marker.
   */
  lemma ShortModulePath()
    ensures CodebaseScanner.RelativePath("c", "c/src/Controller/X.php") == "srController/X.php"
  {
    var tail := "Controller/X.php";
    assert 'c' !in tail;
    assert "c/src/Controller/X.php" == ['c', '/', 's', 'r', 'c', '/'] + tail;
    assert "srController/X.php" == ['s', 'r'] + tail;
    SingleComponentRecurs('c', 's', 'r', tail);
  }
}

=== FILE: strings.dfy ===
/**
  The PHP string functions the scanner relies on, over `string` (= `seq<char>`):
  `str_starts_with`, `strpos`, `substr_count`, `rtrim`, `basename` and
  `str_replace` with an empty replacement.
 */
module Strings {
  import opened Wrappers

  predicate NoSlash(s: string) {
    forall i :: 0 <= i < |s| ==> s[i] != '/'
  }

  /** PHP `str_starts_with`. */
  predicate StartsWith(s: string, p: string) {
    |p| <= |s| && s[..|p|] == p
  }

  predicate EndsWith(s: string, p: string) {
    |p| <= |s| && s[|s| - |p|..] == p
  }

  /** `needle` occurs in `s` starting at index `i`. */
  predicate OccursAt(s: string, needle: string, i: nat) {
    i + |needle| <= |s| && s[i..i + |needle|] == needle
  }

  /** PHP `strpos($s, $needle, $from)`: the first occurrence at or after `from`. */
  function Find(s: string, needle: string, from: nat): (r: Option<nat>)
    requires from <= |s|
    ensures r.Some? ==> from <= r.value && OccursAt(s, needle, r.value)
    ensures r.Some? ==> forall j :: from <= j < r.value ==> !OccursAt(s, needle, j)
    ensures r.None? ==> forall j :: from <= j ==> !OccursAt(s, needle, j)
    decreases |s| - from
  {
    if OccursAt(s, needle, from) then Some(from)
    else if from == |s| then None
    else Find(s, needle, from + 1)
  }

  /** `strpos($s, $needle) !== FALSE`. */
  predicate Contains(s: string, needle: string) {
    Find(s, needle, 0).Some?
  }

  /** PHP `substr_count($s, $c)` for a one-character needle. */
  function CountChar(s: string, c: char): (n: nat)
    ensures n == multiset(s)[c]
  {
    if |s| == 0 then 0
    else
      assert s == [s[0]] + s[1..];
      (if s[0] == c then 1 else 0) + CountChar(s[1..], c)
  }

  /** A string holds at least as many `c` as any string it contains. */
  lemma ContainsCount(s: string, needle: string, c: char)
    requires Contains(s, needle)
    ensures CountChar(needle, c) <= CountChar(s, c)
  {
    var i := Find(s, needle, 0).value;
    assert s == s[..i] + needle + s[i + |needle|..];
  }

  /** PHP `rtrim($s, '/')`: the longest prefix of `s` not ending in `/`. */
  function RTrimSlash(s: string): (r: string)
    ensures |r| <= |s| && s[..|r|] == r
    ensures forall i :: |r| <= i < |s| ==> s[i] == '/'
    ensures |r| == 0 || r[|r| - 1] != '/'
  {
    if |s| > 0 && s[|s| - 1] == '/' then RTrimSlash(s[..|s| - 1]) else s
  }

  /** Appending slashes does not change what `rtrim` leaves. */
  lemma {:induction false} RTrimSlashes(s: string, slashes: string)
    requires forall i :: 0 <= i < |slashes| ==> slashes[i] == '/'
    ensures RTrimSlash(s + slashes) == RTrimSlash(s)
    decreases |slashes|
  {
    if |slashes| == 0 {
      assert s + slashes == s;
    } else {
      var t := s + slashes;
      assert t[..|t| - 1] == s + slashes[..|slashes| - 1];
      RTrimSlashes(s, slashes[..|slashes| - 1]);
    }
  }

  /** The longest slash-free suffix of `t`. */
  function AfterLastSlash(t: string): (r: string)
    ensures EndsWith(t, r) && NoSlash(r)
    ensures |r| == |t| || t[|t| - |r| - 1] == '/'
  {
    if |t| == 0 || t[|t| - 1] == '/' then ""
    else AfterLastSlash(t[..|t| - 1]) + [t[|t| - 1]]
  }

  /** PHP `basename($s)`: trailing slashes are dropped, then the last component is kept. */
  function Basename(s: string): (r: string)
    ensures var t := RTrimSlash(s);
      NoSlash(r) && EndsWith(t, r) && (|r| == |t| || t[|t| - |r| - 1] == '/')
  {
    AfterLastSlash(RTrimSlash(s))
  }

  /** `b` without `suffix`, cut only when something is left. */
  function CutSuffix(b: string, suffix: string): (r: string)
    ensures if |suffix| < |b| && EndsWith(b, suffix) then |r| > 0 && r + suffix == b else r == b
  {
    if |suffix| < |b| && EndsWith(b, suffix) then
      assert b == b[..|b| - |suffix|] + b[|b| - |suffix|..];
      b[..|b| - |suffix|]
    else b
  }

  /** PHP `basename($s, $suffix)`: the suffix is cut only when something is left. */
  function BasenameWithSuffix(s: string, suffix: string): (r: string)
    ensures var b := Basename(s);
      if |suffix| < |b| && EndsWith(b, suffix) then |r| > 0 && r + suffix == b else r == b
  {
    CutSuffix(Basename(s), suffix)
  }

  /** When the last `/` of `f` is at index `i` and something follows it, the base name is what follows. */
  lemma BasenameAfterSlash(f: string, i: nat)
    requires i + 1 < |f| && f[i] == '/'
    requires forall k :: i < k < |f| ==> f[k] != '/'
    ensures Basename(f) == f[i + 1..]
  {
    assert RTrimSlash(f) == f;
    var r := AfterLastSlash(f);
    assert forall k :: |f| - |r| <= k < |f| ==> f[k] != '/' by {
      forall k | |f| - |r| <= k < |f|
        ensures f[k] != '/'
      {
        assert f[k] == r[k - (|f| - |r|)];
      }
    }
    assert |r| == |f| - i - 1;
  }

  /**
    PHP `str_replace($needle, '', $s)`: every left-to-right, non-overlapping
    occurrence of `needle` is deleted; an empty needle leaves `s` unchanged.
   */
  function RemoveAll(s: string, needle: string): (r: string)
    ensures |r| <= |s|
    decreases |s|
  {
    if |needle| == 0 || |s| == 0 then s
    else if StartsWith(s, needle) then RemoveAll(s[|needle|..], needle)
    else [s[0]] + RemoveAll(s[1..], needle)
  }

  /** Where the needle does not start, `str_replace` keeps the first character. */
  lemma RemoveAllKeep(s: string, needle: string)
    requires |needle| > 0 && |s| > 0 && !StartsWith(s, needle)
    ensures RemoveAll(s, needle) == [s[0]] + RemoveAll(s[1..], needle)
  {
  }

  /** An occurrence at `j + 1` in `s` is an occurrence at `j` in its tail. */
  lemma OccursInTail(s: string, needle: string, j: nat)
    requires |s| > 0
    ensures OccursAt(s, needle, j + 1) <==> OccursAt(s[1..], needle, j)
  {
    if j + 1 + |needle| <= |s| {
      assert s[1..][j..j + |needle|] == s[j + 1..j + 1 + |needle|];
    }
  }

  /** The first occurrence at `i > 0` in `s` is the first occurrence at `i - 1` in its tail. */
  lemma FirstInTail(s: string, needle: string, i: nat)
    requires 0 < i && OccursAt(s, needle, i)
    requires forall j :: 0 <= j < i ==> !OccursAt(s, needle, j)
    ensures OccursAt(s[1..], needle, i - 1)
    ensures forall j :: 0 <= j < i - 1 ==> !OccursAt(s[1..], needle, j)
  {
    OccursInTail(s, needle, i - 1);
    forall j | 0 <= j < i - 1
      ensures !OccursAt(s[1..], needle, j)
    {
      OccursInTail(s, needle, j);
    }
  }

  /** A leading needle is deleted and `str_replace` carries on after it. */
  lemma RemoveAllAtStart(s: string, needle: string)
    requires |needle| > 0 && StartsWith(s, needle)
    ensures RemoveAll(s, needle) == s[..0] + RemoveAll(s[|needle|..], needle)
  {
    assert s[..0] == [];
  }

  /** The first character, then the tail's first `i - 1`, is the first `i`. */
  lemma HeadJoin(s: string, i: nat, x: string)
    requires 0 < i <= |s|
    ensures [s[0]] + (s[1..][..i - 1] + x) == s[..i] + x
  {
    assert s[..i] == [s[0]] + s[1..][..i - 1];
  }

  /** What `str_replace` does to the tail, past a kept first character, it does to the whole. */
  lemma RemoveAllPastHead(s: string, needle: string, i: nat)
    requires |needle| > 0 && 0 < i && i + |needle| <= |s| && !StartsWith(s, needle)
    requires RemoveAll(s[1..], needle) == s[1..][..i - 1] + RemoveAll(s[1..][i - 1 + |needle|..], needle)
    ensures RemoveAll(s, needle) == s[..i] + RemoveAll(s[i + |needle|..], needle)
  {
    assert s[1..][i - 1 + |needle|..] == s[i + |needle|..];
    RemoveAllKeep(s, needle);
    HeadJoin(s, i, RemoveAll(s[i + |needle|..], needle));
  }

  /**
    When the first occurrence of the needle is at `i`, `str_replace` keeps
    what comes before it, deletes it and carries on after it.
   */
  lemma {:induction false} RemoveAllFirst(s: string, needle: string, i: nat)
    requires |needle| > 0 && OccursAt(s, needle, i)
    requires forall j :: 0 <= j < i ==> !OccursAt(s, needle, j)
    ensures RemoveAll(s, needle) == s[..i] + RemoveAll(s[i + |needle|..], needle)
    decreases i
  {
    if i == 0 {
      RemoveAllAtStart(s, needle);
    } else {
      assert !OccursAt(s, needle, 0);
      FirstInTail(s, needle, i);
      RemoveAllFirst(s[1..], needle, i - 1);
      RemoveAllPastHead(s, needle, i);
    }
  }

  /**
    `str_replace` deletes the first occurrence that `strpos` finds and
    carries on after it; with no occurrence the string comes back as it was.
   */
  lemma RemoveAllFind(s: string, needle: string)
    requires |needle| > 0
    ensures Find(s, needle, 0).None? ==> RemoveAll(s, needle) == s
    ensures Find(s, needle, 0).Some? ==>
      var i := Find(s, needle, 0).value;
      RemoveAll(s, needle) == s[..i] + RemoveAll(s[i + |needle|..], needle)
  {
    match Find(s, needle, 0)
    case None =>
      RemoveAllNoOccurrence(s, needle);
    case Some(i) =>
      RemoveAllFirst(s, needle, i);
  }

  /** A string with no occurrence of the needle is returned unchanged. */
  lemma {:induction false} RemoveAllNoOccurrence(s: string, needle: string)
    requires !Contains(s, needle)
    ensures RemoveAll(s, needle) == s
    decreases |s|
  {
    if |needle| > 0 && |s| > 0 {
      assert !OccursAt(s, needle, 0);
      assert !Contains(s[1..], needle) by {
        forall j: nat | j <= |s[1..]|
          ensures !OccursAt(s[1..], needle, j)
        {
          assert !OccursAt(s, needle, j + 1);
          if j + |needle| <= |s[1..]| {
            assert s[1..][j..j + |needle|] == s[j + 1..j + 1 + |needle|];
          }
        }
      }
      RemoveAllNoOccurrence(s[1..], needle);
      assert s == [s[0]] + s[1..];
    }
  }

  /**
    A path `prefix + rest`, where `rest` does not contain `prefix`, has
    `rest` as its remainder once `prefix` is removed everywhere.
   */
  lemma RemoveAllLeading(prefix: string, rest: string)
    requires |prefix| > 0 && !Contains(rest, prefix)
    ensures RemoveAll(prefix + rest, prefix) == rest
  {
    var s := prefix + rest;
    assert StartsWith(s, prefix);
    assert s[|prefix|..] == rest;
    RemoveAllNoOccurrence(rest, prefix);
  }

  /** A needle ending in `/` never occurs in a slash-free string. */
  lemma SlashNeedleAbsent(s: string, needle: string)
    requires NoSlash(s) && |needle| > 0 && needle[|needle| - 1] == '/'
    ensures !Contains(s, needle)
  {
  }
}

=== FILE: subsequences.dfy ===
/** Order-preserving selection of elements from a sequence. */
module Subsequences {

  /** `a` is obtained from `b` by deleting elements: each head of `b` is kept or skipped. */
  predicate IsSubseq<T(==)>(a: seq<T>, b: seq<T>)
    decreases |b|
  {
    if |b| == 0 then |a| == 0
    else (|a| > 0 && a[0] == b[0] && IsSubseq(a[1..], b[1..])) || IsSubseq(a, b[1..])
  }

  /** Every element of a subsequence occurs in the sequence it was drawn from. */
  lemma {:induction false} SubseqMembers<T>(a: seq<T>, b: seq<T>)
    requires IsSubseq(a, b)
    ensures forall x :: x in a ==> x in b
    decreases |b|
  {
    if |b| > 0 {
      if |a| > 0 && a[0] == b[0] && IsSubseq(a[1..], b[1..]) {
        SubseqMembers(a[1..], b[1..]);
        assert a == [a[0]] + a[1..];
      } else {
        SubseqMembers(a, b[1..]);
      }
    }
  }

  /** Subsequences concatenate: the pieces of a concatenation may be drawn independently. */
  lemma {:induction false} SubseqConcat<T>(a1: seq<T>, b1: seq<T>, a2: seq<T>, b2: seq<T>)
    requires IsSubseq(a1, b1) && IsSubseq(a2, b2)
    ensures IsSubseq(a1 + a2, b1 + b2)
    decreases |b1|
  {
    if |b1| == 0 {
      assert a1 + a2 == a2 && b1 + b2 == b2;
    } else {
      assert (b1 + b2)[1..] == b1[1..] + b2;
      if |a1| > 0 && a1[0] == b1[0] && IsSubseq(a1[1..], b1[1..]) {
        SubseqConcat(a1[1..], b1[1..], a2, b2);
        assert (a1 + a2)[1..] == a1[1..] + a2;
      } else {
        SubseqConcat(a1, b1[1..], a2, b2);
      }
    }
  }

  lemma {:induction false} SubseqEmpty<T>(b: seq<T>)
    ensures IsSubseq([], b)
    decreases |b|
  {
    if |b| > 0 {
      SubseqEmpty(b[1..]);
    }
  }

  /** The first element alone is a subsequence. */
  lemma SubseqHead<T>(b: seq<T>)
    requires |b| > 0
    ensures IsSubseq([b[0]], b)
  {
    SubseqEmpty(b[1..]);
    assert [b[0]][1..] == [];
  }

  /** No element occurs twice. */
  predicate Distinct<T(==)>(s: seq<T>) {
    forall i, j :: 0 <= i < j < |s| ==> s[i] != s[j]
  }

  /** A subsequence of a sequence without repeats has none either. */
  lemma {:induction false} SubseqDistinct<T>(a: seq<T>, b: seq<T>)
    requires IsSubseq(a, b) && Distinct(b)
    ensures Distinct(a)
    decreases |b|
  {
    if |b| > 0 {
      assert Distinct(b[1..]);
      if |a| > 0 && a[0] == b[0] && IsSubseq(a[1..], b[1..]) {
        SubseqDistinct(a[1..], b[1..]);
        SubseqMembers(a[1..], b[1..]);
        forall j | 0 < j < |a|
          ensures a[0] != a[j]
        {
          assert a[1..][j - 1] in b[1..];
        }
        forall i, j | 0 < i < j < |a|
          ensures a[i] != a[j]
        {
          assert a[1..][i - 1] != a[1..][j - 1];
        }
      } else {
        SubseqDistinct(a, b[1..]);
      }
    }
  }
}

=== FILE: wrappers.dfy ===
/** An optional value, standing for PHP's `null` / missing-key results. */
module Wrappers {

  datatype Option<+T> = None | Some(value: T) {

    /** The wrapped value, or `default` when there is none (PHP's `??`). */
    function GetOr(default: T): T {
      match this
      case Some(v) => v
      case None => default
    }
  }
}
